=== FILE: README.md ===
# yt-dlp GUI workflow core in Dafny

A model of the job orchestration core of `yt-dlp.py`, a PyQt6 front end for
the yt-dlp downloader. The window walks the user through four pages of a
stacked widget, numbered by their index: 0 URL input, 1 download options,
2 conversion, 3 finish. Three
background jobs run on worker threads:

- the format fetch, which filters, projects and sorts yt-dlp's format list;
- the download, which builds yt-dlp options from four check boxes and the
  selected format, and reports progress through a hook that a cancel flag
  can abort;
- the conversion, which looks for the downloaded thumbnail under
  `downloads/` and converts it with the image library, followed by a
  simulated video conversion.

Files and modules:

- `common.dfy` (`Common`): `Option`, and the string helpers the code relies
  on: Python's `in` on strings, `str.lower`, and ASCII digits.
- `formats.dfy` (`Formats`): `_fetch_formats`, `_format_size` and
  `_size_to_sortable`.
  - The raw yt-dlp format is a record of optional fields.
  - Python's stable `sort(reverse=True)` is a stable insertion sort by
    descending key.
  - `FetchFormats` is the loop itself, proved against that sort.
- `options.dfy` (`Options`): the option builder of `start_download`, as a
  function `BuildDownload`.
  - The height comes from the first digit run of the resolution, or "2160".
  - The merged format expression has a parser it round-trips with.
  - Also here: the `_handle_download_option_change` reducer with
    `can_download`, and the list filling of `update_page2_formats`.
- `download.dfy` (`Download`): `YtdlpWorker` as a class with the
  `is_downloading` and `_is_cancelled` flags.
  - `_progress_hook` is a method proved against a function.
  - A download is a script of collaborator hook calls and GUI cancel
    clicks, followed by how the collaborator call ends.
  - `StartDownload` runs the script in a loop. Its events equal the
    reference `DownloadEvents`, whose properties are lemmas.
- `conversion.dfy` (`Conversion`): `_check_conversion_ready`, the options
  `start_conversion_simulation` builds, and `ConversionWorker` as a class.
  - `ConvertImage` and `Run` run against a filesystem given as a set of
    paths.
  - The image library's outcome is a parameter: converted, open or save
    failed, or remove failed.
- `workflow.dfy` (`Workflow`): the main window as class `Gui`. Its fields
  are the window's variables and the widget states the handlers read: the
  check boxes, the list and its current item, the combo indices, the
  enabled states of the buttons, and the page index. Every handler is a
  method.
  - A Qt call that emits a signal runs the connected handler at once, and
    only when the value changes. This covers `setChecked`, `clear` and a
    combo's `setCurrentIndex`. It is how Qt's direct connections behave,
    including the re-entrant run of `_handle_download_option_change` when
    one media box unchecks the other.
  - `Valid()` is the invariant every handler keeps:
    - the two media boxes are never both checked;
    - the list is enabled exactly with the merged box;
    - the list shows the formats without "صوت فقط";
    - the current item lies inside the list;
    - the slug has at most 100 characters;
    - the combo indices lie inside their combos.
  - The page index is a subtype bounded by 3.

Outside inputs become parameters:
- the worker events reach the window through its handler methods;
- the URL checks `is_youtube_link` and `clean_url` are given as their
  verdict and result;
- `slugify` is given as its result;
- the random size jitter is a sequence of factors in [0.9, 1.1];
- the image library is given as its outcome.

Behaviour of the code that a reader might expect otherwise, and that the
model keeps as the code has it:
- A cancelled download emits no terminal event: there is no "cancelled"
  event. The `SystemExit` raised by the hook is swallowed
  (`CancelSilencesJob`).
- The download percentage is not clamped to 0..100 (`PercentNotClamped`).
- `on_formats_ready` accepts an empty format list and still shows page 1.
- `reset_application` does not cancel running workers.
- A conversion error is routed to `on_download_error`. That handler
  re-enables the download page's buttons, leaves the conversion page's
  buttons disabled, and leaves the page where it is.
- The back button of the finish page always goes to page 2, the
  conversion page. It does so even when the download skipped that page.
- `start_conversion_simulation` passes the image combo's text to the
  worker whatever the thumbnail box says. `Gui.StartConversion` does so
  with its `ComboText` switch; `RequestedOnly` gives the corrected
  behaviour of the second finding.

The functions that model the source's functions, and the members whose
contracts state their properties:
- `Options.BuildDownload` (`start_download`'s option building):
  `DownloadDecision`, `NoMediaIffAuxiliary`, `MergedDownloadCarriesSelection`,
  `CanDownloadVersusDecision`, and `Gui.DownloadRequest`, which is proved
  equal to it.
- `Options.OnOptionChange` (`_handle_download_option_change`):
  `OptionChangeEffect`, `ToggleKeepsExclusive`, `Gui.HandleOptionChange`.
- `Download.HookStep` (`_progress_hook`): `DownloadingHookOutcome`,
  `CancelledHookAborts`, `HookProgress`, `YtdlpWorker.ProgressHook`.
- `Download.DownloadEvents` (the events of `_start_download`):
  `CancelSilencesJob`, `ErrorIsTerminal`, `AuxiliaryReportsStem`,
  `YtdlpWorker.StartDownload`.
- `Conversion.ImageJob` (`_convert_image`): `ImageJobShape`,
  `MissingThumbnailFails`, `ConversionWorker.ConvertImage`.
- `Conversion.Job` (`ConversionWorker.run`): `JobWellFormed`,
  `VideoOnlyJob`, `ImageJobProgress`, `JobTouchesOnlyThumbnails`,
  `ConversionWorker.Run`.

## Model

| member | source | states |
|---|---|---|
| Common.ContainsIffOccurs | yt-dlp.py:759 | Python's `needle in haystack` holds exactly when the needle occurs at some index of the haystack |
| Common.Lower | yt-dlp.py:347 | the ASCII `str.lower`: it keeps the length, maps A–Z to a–z and leaves every other character alone |
| Formats.KeepIffNotBothNone | yt-dlp.py:196 | an entry is shown unless both its video codec and its audio codec are 'none' |
| Formats.SizeBytes | yt-dlp.py:199-200 | the byte count is `filesize` when it is positive, else `filesize_approx` when that is positive, else there is none; a present count is positive |
| Formats.SortKeyOfFormattedSize | yt-dlp.py:279-303 | parsing a formatted size back gives the size in KB; B labels give 0 |
| Formats.SortKeyMonotone | yt-dlp.py:286-303 | the sort key never reverses the order of two byte counts |
| Formats.Project | yt-dlp.py:197-210 | a projected entry has a non-negative sort key, and its size is N/A exactly when it has no byte count |
| Formats.AudioOnlyEntryIsMarked | yt-dlp.py:197-209 | an audio-only entry gets the resolution "صوت فقط" and its audio codec as its note; any other entry gets its format note ("N/A" when absent) as resolution and its video codec as its note |
| Formats.ProjectedMembership | yt-dlp.py:194-210 | the unsorted list holds exactly the projections of the kept entries |
| Formats.ProjectedKeysNonNegative | yt-dlp.py:194-210 | every sort key of the unsorted list is non-negative |
| Formats.InsertBySizePermutes | yt-dlp.py:212 | inserting adds exactly the inserted entry |
| Formats.InsertBySizeSorted | yt-dlp.py:212 | inserting into a list sorted by descending size keeps it sorted |
| Formats.InsertBySizeStable | yt-dlp.py:212 | the inserted entry goes before the entries with an equal key |
| Formats.SortBySizeCorrect | yt-dlp.py:212 | the sort yields a permutation sorted by descending key that keeps the input order among equal keys, as Python's stable reverse sort does |
| Formats.UnsizedSortLast | yt-dlp.py:212 | after the sort, every entry that follows an N/A entry has key 0 |
| Formats.FetchFormats | yt-dlp.py:184-218 | an extraction error, or a kept entry without `format_id`, gives the prefixed error message; otherwise the formats are a sorted, stable permutation of the projections of the kept entries, and the title defaults to "فيديو يوتيوب" |
| Options.HeightBound | yt-dlp.py:799-800 | the height is a non-empty digit string: the first maximal digit run of the resolution, or "2160" when it has no digit |
| Options.FirstDigitRunUnique | yt-dlp.py:799 | the first maximal digit run is unique, so the height is determined |
| Options.HeightBoundExamples | yt-dlp.py:795-800 | "1080p" gives "1080", "720p60" gives "720", "medium" gives "2160" |
| Options.MergedFormatRoundTrip | yt-dlp.py:803 | the merged format expression parses back to its height and extension when neither contains ']' |
| Options.MergedFormatInjective | yt-dlp.py:803 | different height and extension pairs give different format expressions |
| Options.DownloadDecision | yt-dlp.py:776-824 | the decision table: merged without a current item is refused, merged gives the height-bounded expression with a video convertor, audio only gives "bestaudio/best" with mp3 192 extraction, thumbnail or description alone gives format "none", nothing checked is refused; description, thumbnail and slug are always copied |
| Options.NoMediaIffAuxiliary | yt-dlp.py:777-821 | a dispatched job has format "none" exactly when its type is auxiliary |
| Options.MergedDownloadCarriesSelection | yt-dlp.py:786-808 | a merged job's format expression parses back to the selected item's height and extension |
| Options.OptionChangeEffect | yt-dlp.py:724-749 | after the handler, the list is enabled with the merged box, the button with `can_download`, a checked media box unchecks the other, and an exclusive state is left as it is |
| Options.ToggleKeepsExclusive | yt-dlp.py:724-749 | clicking any box and running the handler keeps the media boxes exclusive, and the clicked media box wins |
| Options.CanDownloadVersusDecision | yt-dlp.py:742-747 | `start_download` dispatches exactly when `can_download` holds and a merged download has a current item |
| Options.ListedFormatsMembership | yt-dlp.py:756-762 | the list shows exactly the formats whose resolution does not contain "صوت فقط" |
| Options.ListedFormatsSnoc | yt-dlp.py:756-762 | the list is filled in format order, one listed format at a time |
| Options.ListedFormatsSorted | yt-dlp.py:756-762 | the list keeps the descending size order of the fetched formats |
| Download.DownloadingHookOutcome | yt-dlp.py:174-180 | a "downloading" call that was not cancelled reports progress exactly when the total chosen by `total_bytes or total_bytes_estimate` is positive and the byte count is not None, and then reports the percentage of that total with a missing count as 0; it raises exactly when the total is None or the count is None under a positive total; it does nothing exactly when the total is 0 or less |
| Download.TotalBytesFallback | yt-dlp.py:175-180 | when `total_bytes` is missing, None or 0 the estimate is the total; with no estimate either the total is 1, so the event reports the byte count times 100 |
| Download.PercentInRange | yt-dlp.py:178-179 | for downloaded ≤ total, the percentage lies in 0..100 and is 100 exactly at the total |
| Download.PercentMonotone | yt-dlp.py:178-179 | the percentage never decreases as the byte count grows |
| Download.PercentNotClamped | yt-dlp.py:178-179 | a byte count above the total can report more than 100: 3 of 2 gives 150 |
| Download.CancelledHookAborts | yt-dlp.py:164-172 | with the cancel flag set, a hook call on a dict aborts and emits nothing |
| Download.HookProgress | yt-dlp.py:174-180 | a "downloading" call with downloaded ≤ total emits a progress event in 0..100 |
| Download.ConfigForDispatch | yt-dlp.py:228-259 | every job writes to `downloads/<slug>.%(ext)s` with the builder's post-processors, and skips the media download exactly for auxiliary jobs |
| Download.ReplayHalted | yt-dlp.py:251-272 | once the collaborator call raised, later steps change nothing |
| Download.CancelSilencesJob | yt-dlp.py:164-172 | a cancel click during a download, followed by a hook call, ends the job with no event beyond those already emitted |
| Download.CancelAfterFinishedIgnored | yt-dlp.py:838-841 | a cancel click after the "finished" status changes nothing |
| Download.ErrorIsTerminal | yt-dlp.py:251-272 | a download emits at most one error, and nothing after it |
| Download.AuxiliaryReportsStem | yt-dlp.py:255-263 | an auxiliary job whose collaborator returns, and whose hook calls raised nothing, reports the stem `downloads/<slug>` after the events of those calls; with no hook calls that is its only event |
| Download.YtdlpWorker.constructor | yt-dlp.py:143-149 | a new worker holds its options with both flags cleared |
| Download.YtdlpWorker.CancelDownload | yt-dlp.py:275-277 | the cancel flag is set and nothing else changes |
| Download.YtdlpWorker.ProgressHook | yt-dlp.py:164-182 | the hook's outcome is `HookStep` of the cancel flag; "finished" clears `is_downloading` |
| Download.YtdlpWorker.StartDownload | yt-dlp.py:220-272 | the collaborator gets `ConfigFor(options)`, the events are `DownloadEvents` of the script, the cancel flag ends as the script's replay leaves it, and `is_downloading` ends false |
| Conversion.ConvertButtonMeansWork | yt-dlp.py:961-986 | the convert button is enabled exactly when `start_conversion_simulation` starts a worker, and then the job has a video step or an image conversion; without a requested thumbnail the image combo does not change the button |
| Conversion.PlanConversionAsWritten | yt-dlp.py:974-997 | as written: no job exactly when nothing is ready; otherwise the image format is always the image combo's text, the slug is the window's, and the video step runs exactly when a codec or container is chosen |
| Conversion.PlanConversion | yt-dlp.py:974-997 | corrected: no job exactly when nothing is ready; the video flag is the codec/container choice; an image conversion is asked for exactly when an image format is chosen and a thumbnail requested |
| Conversion.PlansAgreeWithThumbnail | yt-dlp.py:979-994 | with a thumbnail requested, the corrected plan equals the written one |
| Conversion.FirstThumbnailSpec | yt-dlp.py:353-365 | the lookup returns the first of `<slug>.webp`, `.jpg`, `.jpeg` under `downloads/` that exists, and nothing exactly when none exists |
| Conversion.ImageJobShape | yt-dlp.py:344-385 | the image step reports nothing, 10, or 10 then 50, and raises whenever it stops before 50 |
| Conversion.JobWellFormed | yt-dlp.py:320-340 | every conversion job ends in exactly one terminal event, and its progress never decreases and stays in 0..100 |
| Conversion.VideoOnlyJob | yt-dlp.py:320-337 | without an image step the job leaves the files alone and reports 5 (if converting video) and 100 |
| Conversion.MissingThumbnailFails | yt-dlp.py:362-365 | with no thumbnail on disk, the job fails at once with the not-found message |
| Conversion.ImageJobProgress | yt-dlp.py:329-377 | a successful image job reports 10, 50, then 55 if converting video, then 100 |
| Conversion.JobTouchesOnlyThumbnails | yt-dlp.py:368-380 | a job only adds the output path and only removes the original thumbnail, and removes it only after reporting 50 |
| Conversion.SameFormatLosesThumbnail | yt-dlp.py:368-380 | as written, webp on a webp thumbnail succeeds and leaves no file |
| Conversion.ConvertedImageKept | yt-dlp.py:368-380 | corrected: a successful image job leaves the converted image on disk |
| Conversion.UnrequestedThumbnailBlocksVideo | yt-dlp.py:322 | as written, a video conversion with "png" still selected, no thumbnail requested and no files does not succeed |
| Conversion.UnrequestedThumbnailIgnored | yt-dlp.py:320-337 | corrected: without a requested thumbnail, a job leaves the files alone and succeeds |
| Conversion.ConversionWorker.constructor | yt-dlp.py:314-318 | a new worker holds its URL and options, not cancelled |
| Conversion.ConversionWorker.CancelConversion | yt-dlp.py:388-389 | the cancel flag is set |
| Conversion.ConversionWorker.ConvertImage | yt-dlp.py:344-385 | the candidate loop and the image step give exactly `ImageJob`'s events, files and raised message |
| Conversion.ConversionWorker.Run | yt-dlp.py:320-340 | the worker's events and files are `Job`'s, with one terminal event and ordered progress |
| Workflow.Truncated | yt-dlp.py:640 | `[:100]` keeps exactly the first 100 characters, or the whole string when it is shorter |
| Workflow.Gui.constructor | yt-dlp.py:396-437 | the window starts on page 0 with empty data, nothing checked, an empty and disabled list, combos at 0, download, cancel and convert disabled |
| Workflow.Gui.SubmitUrl | yt-dlp.py:616-633 | an empty or non-YouTube URL changes nothing; otherwise the cleaned URL is stored and fetched, and the next button is disabled |
| Workflow.Gui.StoreVideo | yt-dlp.py:637-640 | formats and title are stored, and the slug is exactly the first 100 characters of `slugify`'s result, or all of it when shorter |
| Workflow.Gui.OnFormatsReady | yt-dlp.py:635-643 | page 1 shows the listed formats, nothing checked or current, list and button disabled, the slug the first 100 characters of `slugify`'s result, next enabled |
| Workflow.Gui.OnError | yt-dlp.py:645-648 | the next button comes back |
| Workflow.Gui.UpdatePage2Formats | yt-dlp.py:751-771 | the list holds the listed formats with no current item; the boxes are unchecked, and the list and button disabled |
| Workflow.Gui.HandleOptionChange | yt-dlp.py:724-749 | the handler, including its re-entrant run, leaves the panel at `OnOptionChange` of the old panel |
| Workflow.Gui.ClearBox | yt-dlp.py:765-768 | `setChecked(False)` unchecks the box, and runs the handler only when the box was checked |
| Workflow.Gui.ClearList | yt-dlp.py:754 | `clear()` empties the list, and runs the handler only when there was a current item |
| Workflow.Gui.UncheckAll | yt-dlp.py:765-768 | all four boxes end unchecked, and list and button are disabled if any box was checked |
| Workflow.Gui.ToggleBox | yt-dlp.py:683-686 | a click flips the box and runs the handler: the invariant holds, the clicked media box wins, the button follows `can_download` |
| Workflow.Gui.SelectFormat | yt-dlp.py:692 | a new current item runs the handler; the same item changes nothing |
| Workflow.Gui.SetDownloadButtons | yt-dlp.py:854-856 | the download, cancel and back buttons of the download page take the given states |
| Workflow.Gui.DownloadRequest | yt-dlp.py:776-824 | the field-by-field option building yields `BuildDownload`'s options and type, or none when it refuses |
| Workflow.Gui.StartDownload | yt-dlp.py:773-836 | a dispatched job records its type and disables download and back and enables cancel; a refusal resets the type and touches no button |
| Workflow.Gui.OnDownloadFinished | yt-dlp.py:847-862 | the file is recorded, the buttons come back, and the page is 2 after a merged download or with a thumbnail, 3 otherwise |
| Workflow.Gui.OnDownloadError | yt-dlp.py:864-870 | the download page's buttons come back and the page stays |
| Workflow.Gui.BackFromOptions | yt-dlp.py:703 | page 1 goes back to page 0 |
| Workflow.Gui.CheckConversionReady | yt-dlp.py:961-971 | the convert button follows `ConversionReady` |
| Workflow.Gui.SetCombo | yt-dlp.py:955-957 | a new index runs the check; the same index changes nothing |
| Workflow.Gui.ResetCombos | yt-dlp.py:1087-1089 | the three combos end at 0, and convert is disabled if any combo moved |
| Workflow.Gui.SelectCombo | yt-dlp.py:955-957 | the user's pick keeps the invariant and updates the convert button as `SetCombo` does |
| Workflow.Gui.StartConversion | yt-dlp.py:974-1006 | with the `ComboText` switch the job is `PlanConversionAsWritten`, as the code builds it, and with `RequestedOnly` the corrected `PlanConversion`; with no job the page is 3, otherwise the conversion page's buttons are locked |
| Workflow.Gui.CancelConversion | yt-dlp.py:1012-1021 | with a running worker the buttons come back and the page is 3; otherwise nothing changes |
| Workflow.Gui.OnConversionFinished | yt-dlp.py:1023-1029 | the conversion page's buttons come back and the page is 3 |
| Workflow.Gui.BackFromConvert | yt-dlp.py:933 | page 2 goes back to page 1 |
| Workflow.Gui.BackFromFinish | yt-dlp.py:1049 | page 3 goes back one page, to page 2 |
| Workflow.Gui.ForgetVideo | yt-dlp.py:1067-1074 | URL, formats, title, slug, type and file are forgotten |
| Workflow.Gui.ClearOptions | yt-dlp.py:1079-1084 | boxes unchecked, list empty and disabled, and the button disabled if a box or an item changed |
| Workflow.Gui.ResetApplication | yt-dlp.py:1065-1091 | back to page 0 with all data emptied and the invariant kept; download and convert are disabled when one of their widgets was reset from another value, and keep their state otherwise |

## Left out

- Presentation: themes, styles, labels, `show_message`, progress bars, the
  clipboard, the header and the exit buttons.
- Threads and signal delivery: worker events reach the window as handler
  calls. One job runs at a time only because the buttons are disabled.
- The yt-dlp library, `slugify`, `is_youtube_link` and `clean_url`: their
  results are parameters. The regular expressions of the URL checks are not
  modelled.
- `os.makedirs('downloads')` and the `time.sleep` of the simulated video
  conversion are not modelled.
- Formats.FormatSize: the `%.1f` text of a size is not modelled. A label
  keeps its unit and its exact real value, so two sizes that round to the
  same text still differ.
- Formats.Project: the random jitter of `_format_size` is a given factor in
  [0.9, 1.1]. Floating point is exact real arithmetic.
- Common.Lower: only ASCII letters are lowered. Python's `str.lower` also
  lowers letters of other scripts and can change the length (`'İ'`). Only
  the ASCII names of the image formats reach it.
- Formats.Project and Formats.FetchFormats: a key present with the value
  None is the same as a missing key. In the code, `f.get('ext', 'N/A')`,
  `f.get('format_note', 'N/A')` and `info_dict.get('title', ...)` then
  give None, not the default. A None resolution later makes
  `update_page2_formats` raise. A None `formats` list makes the fetch fail
  with a `TypeError` message, where the model iterates over no entries.
- Options.HeightBound: `\d` is taken as the ASCII digits. Python also
  matches other Unicode decimal digits.
- Download.Percent: `downloaded_bytes * 100 / total_bytes` is Python's
  float division before `int` truncates it; the model divides exactly. The
  two agree while both operands are below 2^53, far beyond any file size.
- Download.HookStep: the hook's dictionary is a record. Fields other than
  integers or None are not modelled. A `filename` present with the value
  None reads as missing, so the model reports "" where `d.get('filename', '')`
  gives None. A dictionary without a `status` key, on which `d['status']`
  raises a `KeyError`, is not modelled.
- Workflow.Gui.SelectFormat and Workflow.Gui.BackFromOptions do not require
  the list or the back button to be enabled. The model thus also allows
  clicks that the window's disabled widgets never deliver.
- Conversion.ImageJob: the image library is an outcome parameter, and a
  failed save is taken to leave no output file.
- `ConversionWorker._is_cancelled` is set by `cancel_conversion` but never
  read, so cancelling changes nothing in the job.
- The GUI's `cancel_download` guard is the script's `CancelClick` step,
  which sets the flag only while `is_downloading` holds. The worker's
  `isRunning()` check is not modelled.
- `url_line_edit.clear()` in `reset_application` is not modelled. Neither
  is the next button, which `reset_application` leaves as it is.
- `clearSelection` in `update_page2_formats` changes nothing in the
  model, because it leaves the current item as it is. Qt making an item
  current on its own when items are added is not modelled.

## Findings

| source | as written | input that shows it | evidently intended | confidence | as-written member | corrected member |
|---|---|---|---|---|---|---|
| yt-dlp.py:368-380 | the original thumbnail is removed after every successful save, even when the output path is the original path | image format "webp" with `downloads/clip.webp` as the only file: the job reports success and no file is left | keep the converted image; remove the original only when the output went elsewhere | not executed | Conversion.SameFormatLosesThumbnail | Conversion.ConvertedImageKept |
| yt-dlp.py:322 | the worker converts an image whenever the image combo is not at its first entry, whatever the thumbnail box says | codec 1, image "png", thumbnail not requested, no files: the video conversion fails with the not-found message | convert an image only when a thumbnail was requested, as `_check_conversion_ready` and `start_conversion_simulation` decide | not executed | Conversion.UnrequestedThumbnailBlocksVideo | Conversion.UnrequestedThumbnailIgnored |

=== FILE: common.dfy ===
/** Small value types and text helpers shared by the other modules. */
module Common {

  /** A dictionary lookup that may find nothing (`dict.get` returning None). */
  datatype Option<+T> = None | Some(value: T) {
    function GetOr(default: T): T {
      match this
      case Some(v) => v
      case None => default
    }
  }

  /** Python's `str.isdigit` restricted to the ASCII digits. */
  predicate IsDigit(c: char) {
    '0' <= c <= '9'
  }

  predicate AllDigits(s: string) {
    forall k :: 0 <= k < |s| ==> IsDigit(s[k])
  }

  predicate HasNoChar(s: string, c: char) {
    forall k :: 0 <= k < |s| ==> s[k] != c
  }

  /** `needle in haystack` for strings, scanning the start positions from the left. */
  predicate Contains(haystack: string, needle: string)
    decreases |haystack|
  {
    if |needle| > |haystack| then false
    else haystack[..|needle|] == needle || Contains(haystack[1..], needle)
  }

  predicate OccursAt(haystack: string, needle: string, i: int)
    requires 0 <= i <= |haystack| - |needle|
  {
    haystack[i..i + |needle|] == needle
  }

  /** The scan finds the needle exactly when it occurs as a contiguous slice somewhere. */
  lemma {:induction false} ContainsIffOccurs(haystack: string, needle: string)
    decreases |haystack|
    ensures Contains(haystack, needle) <==>
      exists i :: 0 <= i <= |haystack| - |needle| && OccursAt(haystack, needle, i)
  {
    if |needle| <= |haystack| {
      if haystack[..|needle|] == needle {
        assert OccursAt(haystack, needle, 0);
      } else {
        var tail := haystack[1..];
        ContainsIffOccurs(tail, needle);
        if Contains(tail, needle) {
          var i :| 0 <= i <= |tail| - |needle| && OccursAt(tail, needle, i);
          assert haystack[i + 1..i + 1 + |needle|] == tail[i..i + |needle|];
          assert OccursAt(haystack, needle, i + 1);
        } else {
          forall i | 0 <= i <= |haystack| - |needle| ensures !OccursAt(haystack, needle, i) {
            if i > 0 {
              assert haystack[i..i + |needle|] == tail[i - 1..i - 1 + |needle|];
              assert !OccursAt(tail, needle, i - 1);
            }
          }
        }
      }
    }
  }

  /** `str.lower()` on ASCII letters; other characters are kept. */
  function Lower(s: string): (r: string)
    ensures |r| == |s|
    ensures forall k :: 0 <= k < |s| ==> r[k] == if 'A' <= s[k] <= 'Z' then (s[k] as int + 32) as char else s[k]
  {
    if s == [] then []
    else [if 'A' <= s[0] <= 'Z' then (s[0] as int + 32) as char else s[0]] + Lower(s[1..])
  }
}

=== FILE: conversion.dfy ===
/**
 * The optional conversion step after a download: the enable predicate of the
 * convert button, the options the window hands to the conversion worker, and
 * the worker itself, which looks up the downloaded thumbnail, converts it with
 * an image library and reports its progress as a sequence of events.
 *
 * The filesystem is a set of paths.  The image library is a parameter saying
 * how its open/save and the removal of the original turned out.
 */
module Conversion {
  import opened Common

  /** First entry of every conversion combo box: keep the original. */
  const OriginalEntry := "-- الأصلي (لا تحويل) --"

  const CodecChoices: seq<string> :=
    [OriginalEntry, "libx264 (H.264)", "libx265 (HEVC)", "vp9", "copy (الأصلي)"]
  const ContainerChoices: seq<string> :=
    [OriginalEntry, "mp4", "mkv", "avi", "mov", "webm"]
  const ImageChoices: seq<string> :=
    [OriginalEntry, "png", "jpg", "webp"]

  const DownloadsDir := "downloads/"
  /** Thumbnail extensions yt-dlp may have written, in lookup order. */
  const ThumbnailExts: seq<string> := ["webp", "jpg", "jpeg"]

  const ConversionErrorPrefix := "خطأ في التحويل: "
  const ImageFailurePrefix := "فشل تحويل الصورة المصغرة يدوياً إلى "
  const NotFoundPrefix := "لم يتم العثور على ملف الصورة المصغرة الأصلي لـ "
  const NotFoundSuffix := " بأي صيغة متوقعة."

  // ---------------------------------------------------------------------
  // The convert button and the options handed to the worker
  // ---------------------------------------------------------------------

  /** A video conversion is chosen when the codec or the container combo left its first entry. */
  predicate VideoSelected(codec: nat, container: nat) {
    codec > 0 || container > 0
  }

  /** An image conversion counts only when a thumbnail was asked for on the download page. */
  predicate ImageSelected(image: nat, thumbnail: bool) {
    image > 0 && thumbnail
  }

  /** `_check_conversion_ready`: whether the convert button is enabled. */
  function ConversionReady(codec: nat, container: nat, image: nat, thumbnail: bool): (ready: bool)
    ensures ready <==> codec > 0 || container > 0 || (image > 0 && thumbnail)
    ensures !thumbnail ==> (ready <==> VideoSelected(codec, container))
  {
    VideoSelected(codec, container) || ImageSelected(image, thumbnail)
  }

  /**
   * The convert button is enabled exactly when the handler starts a worker,
   * and then the job, with the image format passed on only when asked for,
   * has work to do: a video step or an image conversion.  Without a
   * requested thumbnail the image combo does not matter.
   */
  lemma ConvertButtonMeansWork(codec: nat, container: nat, image: nat, thumbnail: bool, slug: string)
    requires ComboIndices(codec, container, image)
    ensures ConversionReady(codec, container, image, thumbnail) <==>
      PlanConversionAsWritten(codec, container, image, thumbnail, slug).Some?
    ensures ConversionReady(codec, container, image, thumbnail) <==>
      var p := PlanConversion(codec, container, image, thumbnail, slug);
      p.Some? && (p.value.isVideoConvert || ImageNeeded(p.value))
    ensures !thumbnail ==> forall i :: 0 <= i < |ImageChoices| ==>
      ConversionReady(codec, container, image, false) == ConversionReady(codec, container, i, false)
  {
  }

  /**
   * Which image format the window hands to the worker: the combo's text in
   * every case, as the code does, or only when a thumbnail was asked for.
   */
  datatype ImageGate = ComboText | RequestedOnly

  /** The dictionary `start_conversion_simulation` passes to the worker. */
  datatype ConversionOptions = ConversionOptions(imageFormat: string, titleSlug: string, isVideoConvert: bool)

  predicate ComboIndices(codec: nat, container: nat, image: nat) {
    codec < |CodecChoices| && container < |ContainerChoices| && image < |ImageChoices|
  }

  /**
   * The options as the window builds them: the image format is the combo's
   * text whether or not a thumbnail was asked for.  None means nothing was
   * chosen and no worker starts.
   */
  function PlanConversionAsWritten(codec: nat, container: nat, image: nat, thumbnail: bool, slug: string): (p: Option<ConversionOptions>)
    requires ComboIndices(codec, container, image)
    ensures p.None? <==> !ConversionReady(codec, container, image, thumbnail)
    ensures p.Some? ==> p.value.imageFormat == ImageChoices[image] && p.value.titleSlug == slug
    ensures p.Some? ==> (p.value.isVideoConvert <==> VideoSelected(codec, container))
  {
    if !VideoSelected(codec, container) && !ImageSelected(image, thumbnail) then None
    else Some(ConversionOptions(ImageChoices[image], slug, VideoSelected(codec, container)))
  }

  /**
   * The options with the image format taken from the combo only when the
   * image conversion was really selected, as the enable predicate intends.
   */
  function PlanConversion(codec: nat, container: nat, image: nat, thumbnail: bool, slug: string): (p: Option<ConversionOptions>)
    requires ComboIndices(codec, container, image)
    ensures p.None? <==> !ConversionReady(codec, container, image, thumbnail)
    ensures p.Some? ==> p.value.titleSlug == slug
    ensures p.Some? ==> (p.value.isVideoConvert <==> VideoSelected(codec, container))
    ensures p.Some? ==> (ImageNeeded(p.value) <==> ImageSelected(image, thumbnail))
  {
    if !VideoSelected(codec, container) && !ImageSelected(image, thumbnail) then None
    else
      var format := if ImageSelected(image, thumbnail) then ImageChoices[image] else OriginalEntry;
      Some(ConversionOptions(format, slug, VideoSelected(codec, container)))
  }

  /** The two plans differ only in the image format, and only when no thumbnail was asked for. */
  lemma PlansAgreeWithThumbnail(codec: nat, container: nat, image: nat, slug: string)
    requires ComboIndices(codec, container, image)
    ensures PlanConversion(codec, container, image, true, slug) == PlanConversionAsWritten(codec, container, image, true, slug)
  {
    if image == 0 {
      assert ImageChoices[0] == OriginalEntry;
    }
  }

  // ---------------------------------------------------------------------
  // The worker
  // ---------------------------------------------------------------------

  /** The image conversion runs when the format is not the "original" entry. */
  predicate ImageNeeded(o: ConversionOptions) {
    o.imageFormat != OriginalEntry
  }

  function ThumbnailPath(slug: string, ext: string): string {
    DownloadsDir + slug + "." + ext
  }

  /** The first existing thumbnail candidate from position k of the lookup order on. */
  function FirstThumbnailFrom(files: set<string>, slug: string, k: nat): Option<string>
    decreases |ThumbnailExts| - k
  {
    if k >= |ThumbnailExts| then None
    else if ThumbnailPath(slug, ThumbnailExts[k]) in files then Some(ThumbnailPath(slug, ThumbnailExts[k]))
    else FirstThumbnailFrom(files, slug, k + 1)
  }

  function FirstThumbnail(files: set<string>, slug: string): Option<string> {
    FirstThumbnailFrom(files, slug, 0)
  }

  lemma {:induction false} FirstThumbnailFromSpec(files: set<string>, slug: string, k: nat)
    requires k <= |ThumbnailExts|
    decreases |ThumbnailExts| - k
    ensures FirstThumbnailFrom(files, slug, k).None? <==>
      forall j :: k <= j < |ThumbnailExts| ==> ThumbnailPath(slug, ThumbnailExts[j]) !in files
    ensures FirstThumbnailFrom(files, slug, k).Some? ==>
      exists j :: k <= j < |ThumbnailExts| && FirstThumbnailFrom(files, slug, k).value == ThumbnailPath(slug, ThumbnailExts[j])
        && ThumbnailPath(slug, ThumbnailExts[j]) in files
        && forall i :: k <= i < j ==> ThumbnailPath(slug, ThumbnailExts[i]) !in files
  {
    if k < |ThumbnailExts| {
      if ThumbnailPath(slug, ThumbnailExts[k]) !in files {
        FirstThumbnailFromSpec(files, slug, k + 1);
        var r := FirstThumbnailFrom(files, slug, k + 1);
        if r.Some? {
          var j :| k + 1 <= j < |ThumbnailExts| && r.value == ThumbnailPath(slug, ThumbnailExts[j])
            && ThumbnailPath(slug, ThumbnailExts[j]) in files
            && forall i :: k + 1 <= i < j ==> ThumbnailPath(slug, ThumbnailExts[i]) !in files;
          assert forall i :: k <= i < j ==> ThumbnailPath(slug, ThumbnailExts[i]) !in files;
        }
      }
    }
  }

  /**
   * The thumbnail is the first of webp, jpg, jpeg that exists under the
   * slug; there is none exactly when no candidate exists.
   */
  lemma FirstThumbnailSpec(files: set<string>, slug: string)
    ensures FirstThumbnail(files, slug).None? <==>
      forall j :: 0 <= j < |ThumbnailExts| ==> ThumbnailPath(slug, ThumbnailExts[j]) !in files
    ensures FirstThumbnail(files, slug).Some? ==>
      exists j :: 0 <= j < |ThumbnailExts| && FirstThumbnail(files, slug).value == ThumbnailPath(slug, ThumbnailExts[j])
        && ThumbnailPath(slug, ThumbnailExts[j]) in files
        && forall i :: 0 <= i < j ==> ThumbnailPath(slug, ThumbnailExts[i]) !in files
  {
    FirstThumbnailFromSpec(files, slug, 0);
  }

  /** How the image library and the removal of the original turn out. */
  datatype ImageCodec = Converted | OpenOrSaveFailed(cause: string) | RemoveFailed(cause: string)

  /**
   * What happens to the original after a successful save: the code always
   * removes it; the corrected behaviour keeps it when the output was written
   * over the same path.
   */
  datatype Removal = RemoveAlways | KeepIfSame

  predicate RemovesSource(removal: Removal, source: string, output: string) {
    removal == RemoveAlways || source != output
  }

  datatype ConversionEvent = Progress(percent: int) | Finished | Failed(message: string)

  /** What `_convert_image` leaves behind: its events, the files, and the message it raised, if any. */
  datatype ImageResult = ImageResult(events: seq<ConversionEvent>, files: set<string>, raised: Option<string>)

  function NotFoundMessage(slug: string): string {
    NotFoundPrefix + slug + NotFoundSuffix
  }

  function ImageFailureMessage(target: string, cause: string): string {
    ImageFailurePrefix + target + ": " + cause
  }

  /** The thumbnail conversion of one job. */
  function ImageJob(o: ConversionOptions, files: set<string>, codec: ImageCodec, removal: Removal): ImageResult {
    var target := Lower(o.imageFormat);
    match FirstThumbnail(files, o.titleSlug)
    case None => ImageResult([], files, Some(NotFoundMessage(o.titleSlug)))
    case Some(source) =>
      var output := ThumbnailPath(o.titleSlug, target);
      var saved := files + {output};
      match codec
      case OpenOrSaveFailed(cause) =>
        ImageResult([Progress(10)], files, Some(ImageFailureMessage(target, cause)))
      case RemoveFailed(cause) =>
        if RemovesSource(removal, source, output) then
          ImageResult([Progress(10), Progress(50)], saved, Some(ImageFailureMessage(target, cause)))
        else ImageResult([Progress(10), Progress(50)], saved, None)
      case Converted =>
        if RemovesSource(removal, source, output) then ImageResult([Progress(10), Progress(50)], saved - {source}, None)
        else ImageResult([Progress(10), Progress(50)], saved, None)
  }

  /** The simulated video step and the closing events of a job that raised nothing. */
  function VideoTail(o: ConversionOptions): seq<ConversionEvent> {
    (if o.isVideoConvert then [Progress((if ImageNeeded(o) then 50 else 0) + 5)] else [])
      + [Progress(100), Finished]
  }

  /** Everything `ConversionWorker.run` emits and the files it leaves. */
  function Job(o: ConversionOptions, files: set<string>, codec: ImageCodec, removal: Removal): (seq<ConversionEvent>, set<string>) {
    if ImageNeeded(o) then
      var img := ImageJob(o, files, codec, removal);
      match img.raised
      case Some(m) => (img.events + [Failed(ConversionErrorPrefix + m)], img.files)
      case None => (img.events + VideoTail(o), img.files)
    else (VideoTail(o), files)
  }

  // ---------------------------------------------------------------------
  // Properties of a job
  // ---------------------------------------------------------------------

  predicate Succeeded(events: seq<ConversionEvent>) {
    |events| >= 2 && events[|events| - 1] == Finished && events[|events| - 2] == Progress(100)
  }

  predicate IsFailure(e: ConversionEvent) {
    e.Failed?
  }

  /** Exactly one terminal event, at the end: Finished after 100, or a single Failed. */
  predicate OneTerminal(events: seq<ConversionEvent>) {
    |events| >= 1
    && (Succeeded(events) || IsFailure(events[|events| - 1]))
    && forall i :: 0 <= i < |events| - 1 ==> events[i].Progress?
  }

  /** Progress values never go down and stay within 0..100. */
  predicate ProgressOrdered(events: seq<ConversionEvent>) {
    forall i, j :: 0 <= i < j < |events| && events[i].Progress? && events[j].Progress? ==>
      0 <= events[i].percent <= events[j].percent <= 100
  }

  lemma ImageJobShape(o: ConversionOptions, files: set<string>, codec: ImageCodec, removal: Removal)
    ensures var img := ImageJob(o, files, codec, removal);
      img.events in {[], [Progress(10)], [Progress(10), Progress(50)]}
      && (img.events == [] ==> img.raised.Some?)
      && (img.events == [Progress(10)] ==> img.raised.Some?)
  {
  }

  /**
   * Every job ends in exactly one terminal event, and the progress it reports
   * never decreases and stays within 0..100.
   */
  lemma JobWellFormed(o: ConversionOptions, files: set<string>, codec: ImageCodec, removal: Removal)
    ensures OneTerminal(Job(o, files, codec, removal).0)
    ensures ProgressOrdered(Job(o, files, codec, removal).0)
  {
    var events := Job(o, files, codec, removal).0;
    if ImageNeeded(o) {
      ImageJobShape(o, files, codec, removal);
    }
    assert forall i :: 0 <= i < |events| - 1 ==> events[i].Progress?;
  }

  /** A job with nothing to do to the image cannot fail, and reports exactly its video step and 100. */
  lemma VideoOnlyJob(o: ConversionOptions, files: set<string>, codec: ImageCodec, removal: Removal)
    requires !ImageNeeded(o)
    ensures Job(o, files, codec, removal).1 == files
    ensures Job(o, files, codec, removal).0 ==
      (if o.isVideoConvert then [Progress(5), Progress(100), Finished] else [Progress(100), Finished])
  {
  }

  /** With an image to convert and no thumbnail on disk, the job fails before reporting any progress. */
  lemma MissingThumbnailFails(o: ConversionOptions, files: set<string>, codec: ImageCodec, removal: Removal)
    requires ImageNeeded(o)
    requires forall j :: 0 <= j < |ThumbnailExts| ==> ThumbnailPath(o.titleSlug, ThumbnailExts[j]) !in files
    ensures Job(o, files, codec, removal) ==
      ([Failed(ConversionErrorPrefix + NotFoundMessage(o.titleSlug))], files)
  {
    FirstThumbnailSpec(files, o.titleSlug);
    var failed := Failed(ConversionErrorPrefix + NotFoundMessage(o.titleSlug));
    assert ImageJob(o, files, codec, removal) == ImageResult([], files, Some(NotFoundMessage(o.titleSlug)));
    assert [] + [failed] == [failed];
  }

  /**
   * A successful job with an image conversion reports 10 and 50, then the
   * video step at 55 if any, then 100.
   */
  lemma ImageJobProgress(o: ConversionOptions, files: set<string>, removal: Removal)
    requires ImageNeeded(o) && FirstThumbnail(files, o.titleSlug).Some?
    ensures Job(o, files, Converted, removal).0 ==
      [Progress(10), Progress(50)]
      + (if o.isVideoConvert then [Progress(55)] else [])
      + [Progress(100), Finished]
  {
  }

  /**
   * The job only ever adds the output path and only ever removes the
   * original thumbnail, and it removes the original only after the save
   * reported 50.
   */
  lemma JobTouchesOnlyThumbnails(o: ConversionOptions, files: set<string>, codec: ImageCodec, removal: Removal)
    ensures var (events, after) := Job(o, files, codec, removal);
      after - files <= {ThumbnailPath(o.titleSlug, Lower(o.imageFormat))}
      && (files - after != {} ==>
            FirstThumbnail(files, o.titleSlug).Some?
            && files - after == {FirstThumbnail(files, o.titleSlug).value}
            && Progress(50) in events)
  {
  }

  /**
   * As written, choosing the thumbnail's own format (webp on a webp
   * thumbnail) writes the output over the original and then deletes it:
   * the job reports success and no thumbnail is left.
   */
  lemma SameFormatLosesThumbnail()
    ensures var o := ConversionOptions("webp", "clip", false);
      var files := {ThumbnailPath("clip", "webp")};
      var (events, after) := Job(o, files, Converted, RemoveAlways);
      Succeeded(events) && after == {}
  {
    var o := ConversionOptions("webp", "clip", false);
    var files := {ThumbnailPath("clip", "webp")};
    assert ThumbnailPath("clip", "webp") in files;
    assert FirstThumbnail(files, "clip") == Some(ThumbnailPath("clip", "webp"));
    assert Lower("webp") == "webp";
  }

  /** With the corrected removal, a job that converted its image leaves the converted image on disk. */
  lemma ConvertedImageKept(o: ConversionOptions, files: set<string>, codec: ImageCodec)
    requires ImageNeeded(o)
    ensures var (events, after) := Job(o, files, codec, KeepIfSame);
      Succeeded(events) ==> ThumbnailPath(o.titleSlug, Lower(o.imageFormat)) in after
  {
  }

  /**
   * As written, a video conversion with an image format left selected but
   * no thumbnail requested still looks for a thumbnail, and fails when
   * none was downloaded.
   */
  lemma UnrequestedThumbnailBlocksVideo()
    ensures var p := PlanConversionAsWritten(1, 0, 1, false, "clip");
      p.Some? && !Succeeded(Job(p.value, {}, Converted, KeepIfSame).0)
  {
    var p := PlanConversionAsWritten(1, 0, 1, false, "clip");
    assert ImageChoices[1] == "png";
    FirstThumbnailSpec({}, "clip");
  }

  /**
   * With the corrected plan, a job whose thumbnail was not requested never
   * touches the files and always succeeds.
   */
  lemma UnrequestedThumbnailIgnored(codec: nat, container: nat, image: nat, slug: string, files: set<string>, pillow: ImageCodec)
    requires ComboIndices(codec, container, image)
    requires PlanConversion(codec, container, image, false, slug).Some?
    ensures var o := PlanConversion(codec, container, image, false, slug).value;
      var (events, after) := Job(o, files, pillow, KeepIfSame);
      after == files && events == [Progress(5), Progress(100), Finished]
  {
  }

  /** The conversion worker thread; the window keeps one per started conversion. */
  class ConversionWorker {
    const url: string
    const options: ConversionOptions
    /** Set by `cancel_conversion`; `run` never reads it. */
    var isCancelled: bool

    constructor(url: string, options: ConversionOptions)
      ensures this.url == url && this.options == options && !isCancelled
    {
      this.url := url;
      this.options := options;
      isCancelled := false;
    }

    method CancelConversion()
      modifies this
      ensures isCancelled
    {
      isCancelled := true;
    }

    /** `_convert_image`: look the thumbnail up in order, then convert, save and remove the original. */
    method ConvertImage(files: set<string>, codec: ImageCodec, removal: Removal) returns (events: seq<ConversionEvent>, after: set<string>, raised: Option<string>)
      ensures ImageResult(events, after, raised) == ImageJob(options, files, codec, removal)
    {
      var target := Lower(options.imageFormat);
      var slug := options.titleSlug;
      var original: Option<string> := None;
      var i := 0;
      while i < |ThumbnailExts|
        invariant 0 <= i <= |ThumbnailExts|
        invariant original.None? ==> FirstThumbnailFrom(files, slug, i) == FirstThumbnail(files, slug)
        invariant original.Some? ==> original == FirstThumbnail(files, slug)
        decreases |ThumbnailExts| - i
      {
        var candidate := ThumbnailPath(slug, ThumbnailExts[i]);
        if candidate in files {
          original := Some(candidate);
          break;
        }
        i := i + 1;
      }
      events, after := [], files;
      if original.None? {
        raised := Some(NotFoundMessage(slug));
        return;
      }
      var source := original.value;
      var output := ThumbnailPath(slug, target);
      events := events + [Progress(10)];
      if codec.OpenOrSaveFailed? {
        raised := Some(ImageFailureMessage(target, codec.cause));
        return;
      }
      after := after + {output};
      events := events + [Progress(50)];
      raised := None;
      if RemovesSource(removal, source, output) {
        if codec.RemoveFailed? {
          raised := Some(ImageFailureMessage(target, codec.cause));
          return;
        }
        after := after - {source};
      }
    }

    /** `run`: the image step if its format is set, the simulated video step, then 100 and finished. */
    method Run(files: set<string>, codec: ImageCodec, removal: Removal) returns (events: seq<ConversionEvent>, after: set<string>)
      ensures (events, after) == Job(options, files, codec, removal)
      ensures OneTerminal(events) && ProgressOrdered(events)
    {
      events, after := [], files;
      var imageNeeded := options.imageFormat != OriginalEntry;
      if imageNeeded {
        var emitted, raised;
        emitted, after, raised := ConvertImage(files, codec, removal);
        events := emitted;
        if raised.Some? {
          events := events + [Failed(ConversionErrorPrefix + raised.value)];
          assert events == ImageJob(options, files, codec, removal).events + [Failed(ConversionErrorPrefix + raised.value)];
          assert (events, after) == Job(options, files, codec, removal);
          JobWellFormed(options, files, codec, removal);
          return;
        }
      }
      if options.isVideoConvert {
        var start := if imageNeeded then 50 else 0;
        events := events + [Progress(start + 5)];
      }
      events := events + [Progress(100)];
      events := events + [Finished];
      if imageNeeded {
        assert events == ImageJob(options, files, codec, removal).events + VideoTail(options);
      } else {
        assert events == VideoTail(options);
      }
      assert (events, after) == Job(options, files, codec, removal);
      JobWellFormed(options, files, codec, removal);
    }
  }
}

=== FILE: download.dfy ===
/**
 * The acquisition job: `YtdlpWorker._start_download` and its `_progress_hook`.
 *
 * The downloader collaborator is abstracted as a script: the hook calls it makes, in
 * order, interleaved with the cancel clicks the GUI thread delivers meanwhile, and how
 * its call ends (returning, or raising with some cause).
 */
module Download {
  import opened Common
  import opened Options

  /** Prefix of the error event of a failed download ("error while downloading: "). */
  const DownloadErrorPrefix: string := "خطأ أثناء التحميل: "
  const OutputDir: string := "downloads/"
  const ExtPlaceholder: string := ".%(ext)s"
  /** What `None > 0` and `None * 100` raise, should the collaborator pass a None. */
  const NoneCompareCause: string := "'>' not supported between instances of 'NoneType' and 'int'"
  const NoneMultiplyCause: string := "unsupported operand type(s) for *: 'NoneType' and 'int'"

  /** A key of the hook's dictionary: absent, present with None, or an integer. */
  datatype Field = Absent | Null | Value(n: int)

  /** The argument of the hook: something that is not a dict, or a status dict. */
  datatype HookDict =
    | NotADict
    | Dict(status: string, totalBytes: Field, totalBytesEstimate: Field, downloadedBytes: Field, filename: Option<string>)

  /** The signals the worker emits during a download. */
  datatype WorkerEvent = DownloadProgress(percent: int) | DownloadFinished(path: string) | DownloadError(message: string)

  /** What one hook call does: nothing, emit one event, raise SystemExit (cancel), or raise another exception. */
  datatype HookOutcome = Ignored | Emitted(event: WorkerEvent) | Aborted | Raised(cause: string)

  // ------------------------------------------------------------------
  // The progress hook.
  // ------------------------------------------------------------------

  /** `d.get('total_bytes') or d.get('total_bytes_estimate', 1)`; `None` is Python's None. */
  function TotalBytes(totalBytes: Field, estimate: Field): (t: Option<int>)
    ensures totalBytes.Value? && totalBytes.n != 0 ==> t == Some(totalBytes.n)
    ensures !(totalBytes.Value? && totalBytes.n != 0) && estimate.Absent? ==> t == Some(1)
    ensures t.None? <==> !(totalBytes.Value? && totalBytes.n != 0) && estimate.Null?
  {
    if totalBytes.Value? && totalBytes.n != 0 then Some(totalBytes.n)
    else match estimate
      case Absent => Some(1)
      case Null => None
      case Value(m) => Some(m)
  }

  /** Python's `int(a / b)`: the quotient truncated toward zero. */
  function TruncDiv(a: int, b: int): int
    requires b > 0
  {
    if a >= 0 then a / b else -((-a) / b)
  }

  /** `int(downloaded_bytes * 100 / total_bytes)`. */
  function Percent(downloaded: int, total: int): int
    requires total > 0
  {
    TruncDiv(downloaded * 100, total)
  }

  lemma PositiveFactor(x: int, t: int)
    requires t > 0 && x * t > 0
    ensures x > 0
  {
  }

  lemma DivBelow(a: int, t: int, c: int)
    requires t > 0 && 0 <= a < c * t
    ensures a / t < c
  {
    var q := a / t;
    assert q * t <= a;
    assert (c - q) * t == c * t - q * t;
    PositiveFactor(c - q, t);
  }

  lemma DivExact(c: int, t: int)
    requires t > 0 && c >= 0
    ensures (c * t) / t == c
  {
    var q, r := (c * t) / t, (c * t) % t;
    assert c * t == q * t + r && 0 <= r < t;
    assert (c + 1 - q) * t == c * t + t - q * t;
    PositiveFactor(c + 1 - q, t);
    assert (q + 1 - c) * t == q * t + t - c * t;
    PositiveFactor(q + 1 - c, t);
  }

  /** Within 0..total the percentage lies in 0..100 and reaches 100 exactly at the total. */
  lemma PercentInRange(downloaded: int, total: int)
    requires 0 <= downloaded <= total && total > 0
    ensures 0 <= Percent(downloaded, total) <= 100
    ensures Percent(downloaded, total) == 100 <==> downloaded == total
  {
    var a := downloaded * 100;
    assert Percent(downloaded, total) == a / total;
    DivBelow(a, total, 101);
    if downloaded < total {
      DivBelow(a, total, 100);
    } else {
      assert a == 100 * total;
      DivExact(100, total);
    }
  }

  /** The percentage grows with the downloaded byte count. */
  lemma PercentMonotone(b: int, b': int, total: int)
    requires 0 <= b <= b' && total > 0
    ensures Percent(b, total) <= Percent(b', total)
  {
    var q, q' := (b * 100) / total, (b' * 100) / total;
    assert q * total <= b * 100 <= b' * 100 < (q' + 1) * total;
    assert (q' + 1 - q) * total == (q' + 1) * total - q * total;
    PositiveFactor(q' + 1 - q, total);
  }

  /** There is no clamp: a byte count above the total can report more than 100. */
  lemma PercentNotClamped()
    ensures Percent(3, 2) == 150
  {
  }

  /** `_progress_hook`, given the worker's cancel flag at the time of the call. */
  function HookStep(cancelled: bool, d: HookDict): HookOutcome
  {
    if d.NotADict? then Ignored
    else if cancelled then Aborted
    else if d.status == "downloading" then
      match TotalBytes(d.totalBytes, d.totalBytesEstimate)
      case None => Raised(NoneCompareCause)
      case Some(t) =>
        if t <= 0 then Ignored
        else match d.downloadedBytes
          case Absent => Emitted(DownloadProgress(Percent(0, t)))
          case Null => Raised(NoneMultiplyCause)
          case Value(b) => Emitted(DownloadProgress(Percent(b, t)))
    else if d.status == "finished" then Emitted(DownloadFinished(d.filename.GetOr("")))
    else Ignored
  }

  /**
   * What a "downloading" call of the hook does when the download was not
   * cancelled, in terms of the total `TotalBytes` picks: it reports progress
   * exactly when that total is a positive number and the byte count is not
   * None, and then reports the percentage of that total, a missing byte count
   * counting as 0; it raises when the total is None, or when the byte count is
   * None under a positive total; otherwise it does nothing.
   */
  lemma DownloadingHookOutcome(d: HookDict)
    requires d.Dict? && d.status == "downloading"
    ensures var t := TotalBytes(d.totalBytes, d.totalBytesEstimate);
      HookStep(false, d).Emitted? <==> t.Some? && t.value > 0 && !d.downloadedBytes.Null?
    ensures var t := TotalBytes(d.totalBytes, d.totalBytesEstimate);
      HookStep(false, d).Emitted? ==>
        HookStep(false, d).event == DownloadProgress(Percent(if d.downloadedBytes.Value? then d.downloadedBytes.n else 0, t.value))
    ensures var t := TotalBytes(d.totalBytes, d.totalBytesEstimate);
      HookStep(false, d).Raised? <==> t.None? || (t.value > 0 && d.downloadedBytes.Null?)
    ensures var t := TotalBytes(d.totalBytes, d.totalBytesEstimate);
      HookStep(false, d) == Ignored <==> t.Some? && t.value <= 0
  {
  }

  /**
   * The total falls back to the estimate whenever the reported total is
   * missing, None or 0, and to 1 when the estimate is missing too; so a call
   * without either key reports the byte count times 100.
   */
  lemma TotalBytesFallback(d: HookDict, b: int)
    requires d.Dict? && d.status == "downloading" && d.downloadedBytes == Value(b)
    requires !d.totalBytes.Value? || d.totalBytes.n == 0
    ensures d.totalBytesEstimate.Value? ==> TotalBytes(d.totalBytes, d.totalBytesEstimate) == Some(d.totalBytesEstimate.n)
    ensures d.totalBytesEstimate.Absent? ==> HookStep(false, d) == Emitted(DownloadProgress(100 * b))
  {
    if d.totalBytesEstimate.Absent? {
      assert TotalBytes(d.totalBytes, d.totalBytesEstimate) == Some(1);
      assert TruncDiv(b * 100, 1) == 100 * b;
    }
  }

  /** A cancelled hook aborts before it emits anything; only a non-dict argument, which
      is returned from first, escapes the check. */
  lemma CancelledHookAborts(d: HookDict)
    ensures HookStep(true, d) == if d.NotADict? then Ignored else Aborted
    ensures !HookStep(true, d).Emitted? && !HookStep(true, d).Raised?
  {
  }

  /** A progress event carries the truncated percentage of the chosen total. */
  lemma HookProgress(d: HookDict, b: int, t: int)
    requires d.Dict? && d.status == "downloading" && d.downloadedBytes == Value(b)
    requires TotalBytes(d.totalBytes, d.totalBytesEstimate) == Some(t) && t > 0
    requires 0 <= b <= t
    ensures HookStep(false, d).Emitted? && HookStep(false, d).event.DownloadProgress?
    ensures 0 <= HookStep(false, d).event.percent <= 100
  {
    PercentInRange(b, t);
  }

  // ------------------------------------------------------------------
  // The options handed to the collaborator.
  // ------------------------------------------------------------------

  /** The `ydl_opts` / `ydl.params` the job passes to the downloader. */
  datatype YdlConfig = YdlConfig(
    format: string,
    outtmpl: string,
    postprocessors: seq<PostProcessor>,
    writeDescription: bool,
    writeThumbnail: bool,
    skipDownload: bool,
    quiet: bool,
    noplaylist: bool)

  function ConfigFor(o: DownloadOptions): YdlConfig
  {
    YdlConfig(o.format, OutputDir + o.titleSlug + ExtPlaceholder, o.postprocessors,
              o.writeDescription, o.writeThumbnail, o.format == NoMedia, true, true)
  }

  /** Every artifact is written under `downloads/<slug>`, and the media download is
      skipped exactly for the auxiliary-only jobs. */
  lemma ConfigForDispatch(b: Boxes, current: Option<Formats.Descriptor>, slug: string)
    requires BuildDownload(b, current, slug).Dispatch?
    ensures var p := BuildDownload(b, current, slug);
      && ConfigFor(p.options).outtmpl == OutputDir + slug + ExtPlaceholder
      && (ConfigFor(p.options).skipDownload <==> p.kind == Auxiliary)
      && ConfigFor(p.options).postprocessors == p.options.postprocessors
  {
    NoMediaIffAuxiliary(b, current, slug);
  }

  // ------------------------------------------------------------------
  // A whole download, as the collaborator drives it.
  // ------------------------------------------------------------------

  /** One thing that happens while the collaborator runs. */
  datatype Step = Hook(d: HookDict) | CancelClick

  /** How the collaborator call ends when no hook stopped it. */
  datatype Ending = Returned | Failed(cause: string)

  /** The worker's flags, the events emitted so far, and whether an exception has
      already left the collaborator. */
  datatype Run = Run(cancelled: bool, downloading: bool, events: seq<WorkerEvent>, halted: bool)

  /** Right after `_start_download` set `is_downloading`. */
  function Start(): Run {
    Run(false, true, [], false)
  }

  function StepRun(r: Run, s: Step): Run
  {
    match s
    case CancelClick => if r.downloading then r.(cancelled := true) else r
    case Hook(d) =>
      match HookStep(r.cancelled, d)
      case Ignored => r
      case Emitted(e) => r.(events := r.events + [e], downloading := if e.DownloadFinished? then false else r.downloading)
      case Aborted => r.(halted := true)
      case Raised(c) => r.(events := r.events + [DownloadError(DownloadErrorPrefix + c)], halted := true)
  }

  function Replay(r: Run, script: seq<Step>): Run
    decreases |script|
  {
    if r.halted || script == [] then r else Replay(StepRun(r, script[0]), script[1..])
  }

  /** What follows the collaborator's return: the auxiliary-only job reports the stem. */
  function EndEvents(o: DownloadOptions, ending: Ending): seq<WorkerEvent>
  {
    match ending
    case Returned => if o.format == NoMedia then [DownloadFinished(OutputDir + o.titleSlug)] else []
    case Failed(c) => [DownloadError(DownloadErrorPrefix + c)]
  }

  /** The event sequence of a download job. */
  function DownloadEvents(o: DownloadOptions, script: seq<Step>, ending: Ending): seq<WorkerEvent>
  {
    var r := Replay(Start(), script);
    r.events + (if r.halted then [] else EndEvents(o, ending))
  }

  lemma {:induction false} ReplayAppend(r: Run, a: seq<Step>, b: seq<Step>)
    decreases |a|
    ensures Replay(r, a + b) == Replay(Replay(r, a), b)
  {
    if r.halted {
    } else if a == [] {
      assert a + b == b;
    } else {
      assert (a + b)[0] == a[0] && (a + b)[1..] == a[1..] + b;
      ReplayAppend(StepRun(r, a[0]), a[1..], b);
    }
  }

  lemma {:induction false} ReplayHalted(r: Run, script: seq<Step>)
    requires r.halted
    ensures Replay(r, script) == r
  {
  }

  /** A cancel click while the download is under way silences the job: once the next
      hook call observes the flag, no further event (progress, finished or error) is
      emitted, whatever the collaborator would have done afterwards. */
  lemma CancelSilencesJob(o: DownloadOptions, pre: seq<Step>, d: HookDict, rest: seq<Step>, ending: Ending)
    requires d.Dict?
    requires !Replay(Start(), pre).halted && Replay(Start(), pre).downloading
    ensures DownloadEvents(o, pre + [CancelClick, Hook(d)] + rest, ending) == Replay(Start(), pre).events
  {
    var r := Replay(Start(), pre);
    assert pre + [CancelClick, Hook(d)] + rest == pre + ([CancelClick, Hook(d)] + rest);
    ReplayAppend(Start(), pre, [CancelClick, Hook(d)] + rest);
    var r1 := StepRun(r, CancelClick);
    assert r1.cancelled;
    var r2 := StepRun(r1, Hook(d));
    assert r2.halted && r2.events == r.events;
    assert ([CancelClick, Hook(d)] + rest)[1..] == [Hook(d)] + rest;
    assert ([Hook(d)] + rest)[1..] == rest;
    ReplayHalted(r2, rest);
  }

  /** After a "finished" hook `is_downloading` is false, and the GUI's cancel is ignored. */
  lemma CancelAfterFinishedIgnored(pre: seq<Step>)
    requires !Replay(Start(), pre).halted && !Replay(Start(), pre).downloading
    ensures Replay(Start(), pre + [CancelClick]) == Replay(Start(), pre)
  {
    ReplayAppend(Start(), pre, [CancelClick]);
  }

  predicate NoError(es: seq<WorkerEvent>) {
    forall i :: 0 <= i < |es| ==> !es[i].DownloadError?
  }

  /** An error event, if any, is the last event. */
  predicate ErrorOnlyLast(es: seq<WorkerEvent>) {
    forall i :: 0 <= i < |es| && es[i].DownloadError? ==> i == |es| - 1
  }

  lemma {:induction false} ReplayErrors(r: Run, script: seq<Step>)
    requires !r.halted && NoError(r.events)
    decreases |script|
    ensures var r' := Replay(r, script);
      (!r'.halted ==> NoError(r'.events)) && ErrorOnlyLast(r'.events)
  {
    if script != [] {
      var r1 := StepRun(r, script[0]);
      if r1.halted {
        ReplayHalted(r1, script[1..]);
      } else {
        ReplayErrors(r1, script[1..]);
      }
    }
  }

  /** The job emits at most one error, and nothing after it. */
  lemma ErrorIsTerminal(o: DownloadOptions, script: seq<Step>, ending: Ending)
    ensures ErrorOnlyLast(DownloadEvents(o, script, ending))
  {
    ReplayErrors(Start(), script);
    var r := Replay(Start(), script);
    var es := DownloadEvents(o, script, ending);
    if !r.halted {
      forall i | 0 <= i < |r.events| ensures !es[i].DownloadError? {
        assert es[i] == r.events[i];
      }
      assert |es| <= |r.events| + 1;
    }
  }

  /** An auxiliary-only job whose collaborator returns, and whose hook calls raised
      nothing, reports the stem `downloads/<slug>` as its file after the events of those
      calls; without hook calls that is its only event. */
  lemma AuxiliaryReportsStem(o: DownloadOptions, script: seq<Step>)
    requires o.format == NoMedia
    requires !Replay(Start(), script).halted
    ensures DownloadEvents(o, script, Returned) ==
      Replay(Start(), script).events + [DownloadFinished(OutputDir + o.titleSlug)]
    ensures DownloadEvents(o, [], Returned) == [DownloadFinished(OutputDir + o.titleSlug)]
  {
  }

  /**
   * The worker object; `options` is the dict it was created with, the two flags are
   * `is_downloading` and `_is_cancelled`.
   */
  class YtdlpWorker {
    const options: DownloadOptions
    var isDownloading: bool
    var isCancelled: bool

    constructor (options: DownloadOptions)
      ensures this.options == options && !isDownloading && !isCancelled
    {
      this.options := options;
      isDownloading := false;
      isCancelled := false;
    }

    /** `cancel_download`. */
    method CancelDownload()
      modifies this
      ensures isCancelled && isDownloading == old(isDownloading)
    {
      isCancelled := true;
    }

    /** `_progress_hook`; a "finished" status also clears `is_downloading`. */
    method ProgressHook(d: HookDict) returns (outcome: HookOutcome)
      modifies this
      ensures outcome == HookStep(old(isCancelled), d)
      ensures isCancelled == old(isCancelled)
      ensures isDownloading == if outcome.Emitted? && outcome.event.DownloadFinished? then false else old(isDownloading)
    {
      if d.NotADict? {
        return Ignored;
      }
      if isCancelled {
        return Aborted;
      }
      if d.status == "downloading" {
        var total := TotalBytes(d.totalBytes, d.totalBytesEstimate);
        if total.None? {
          return Raised(NoneCompareCause);
        }
        if total.value > 0 {
          match d.downloadedBytes {
            case Absent => outcome := Emitted(DownloadProgress(Percent(0, total.value)));
            case Null => outcome := Raised(NoneMultiplyCause);
            case Value(b) => outcome := Emitted(DownloadProgress(Percent(b, total.value)));
          }
        } else {
          outcome := Ignored;
        }
      } else if d.status == "finished" {
        outcome := Emitted(DownloadFinished(d.filename.GetOr("")));
        isDownloading := false;
      } else {
        outcome := Ignored;
      }
    }

    /**
     * `_start_download` run against a collaborator that performs `script` and then ends
     * with `ending`. A cancel click only sets the flag while `is_downloading` holds
     * (the GUI's `cancel_download` guard). SystemExit from the hook is swallowed.
     */
    method StartDownload(script: seq<Step>, ending: Ending) returns (config: YdlConfig, events: seq<WorkerEvent>)
      requires !isCancelled
      modifies this
      ensures config == ConfigFor(options)
      ensures events == DownloadEvents(options, script, ending)
      ensures isCancelled == Replay(Start(), script).cancelled
      ensures !isDownloading
    {
      isDownloading := true;
      config := ConfigFor(options);
      events := [];
      var halted := false;
      var i := 0;
      while i < |script| && !halted
        invariant 0 <= i <= |script|
        invariant Replay(Run(isCancelled, isDownloading, events, halted), script[i..]) == Replay(Start(), script)
      {
        ghost var before := Run(isCancelled, isDownloading, events, halted);
        assert script[i..][0] == script[i] && script[i..][1..] == script[i + 1..];
        match script[i] {
          case CancelClick =>
            if isDownloading {
              CancelDownload();
            }
          case Hook(d) =>
            var outcome := ProgressHook(d);
            match outcome {
              case Ignored =>
              case Emitted(e) => events := events + [e];
              case Aborted => halted := true;
              case Raised(c) =>
                events := events + [DownloadError(DownloadErrorPrefix + c)];
                halted := true;
            }
        }
        assert Run(isCancelled, isDownloading, events, halted) == StepRun(before, script[i]);
        i := i + 1;
      }
      if !halted {
        assert script[i..] == [];
        match ending {
          case Returned =>
            if options.format == NoMedia {
              events := events + [DownloadFinished(OutputDir + options.titleSlug)];
            }
          case Failed(c) =>
            events := events + [DownloadError(DownloadErrorPrefix + c)];
        }
      }
      isDownloading := false;
    }
  }
}

=== FILE: formats.dfy ===
/**
 * Format discovery: the post-processing `YtdlpWorker._fetch_formats` applies to the
 * format entries the extractor returns (a codec filter, a projection to a descriptor
 * and a descending sort by the parsed size label), together with `_format_size`'s
 * choice of unit and `_size_to_sortable`.
 */
module Formats {
  import opened Common

  /** Resolution sentinel given to audio-only entries ("audio only"). */
  const AudioOnlyLabel: string := "صوت فقط"
  /** Default of `dict.get` for the extension, the format note and an absent size. */
  const NotAvailable: string := "N/A"
  /** Title used when the extractor reports none ("YouTube video"). */
  const DefaultTitle: string := "فيديو يوتيوب"
  /** Prefix of the error event sent when discovery fails ("error fetching formats: "). */
  const FetchErrorPrefix: string := "خطأ في جلب الصيغ: "
  /** `str(KeyError('format_id'))`, the cause reported for an entry without an id. */
  const MissingIdCause: string := "'format_id'"

  const KiB: real := 1024.0
  const MiB: real := 1048576.0
  const GiB: real := 1073741824.0

  /** One raw format entry of the extractor; `None` stands for a key that is absent. */
  datatype RawFormat = RawFormat(
    formatId: Option<string>,
    ext: Option<string>,
    formatNote: Option<string>,
    vcodec: Option<string>,
    acodec: Option<string>,
    filesize: Option<nat>,
    filesizeApprox: Option<nat>)

  /**
   * The human-readable size label `_format_size` produces: "N/A", or an amount in one
   * of four units. The amount is kept exact; its rendering with one decimal is not modelled.
   */
  datatype SizeLabel = NoSize | Bytes(amount: real) | Kilo(amount: real) | Mega(amount: real) | Giga(amount: real)

  /** A descriptor of one selectable format, as appended to the `formats` list. */
  datatype Descriptor = Descriptor(id: string, ext: string, resolution: string, filesize: SizeLabel, note: Option<string>)

  /** What the extractor collaborator returned for the URL. */
  datatype Extraction = Extracted(formats: Option<seq<RawFormat>>, title: Option<string>) | ExtractionFailed(cause: string)

  /** The single event the discovery job emits: `formats_ready` or `download_error`. */
  datatype FetchResult = FormatsReady(formats: seq<Descriptor>, title: string) | FetchFailed(message: string)

  /** The entry filter: video-capable entries and audio-only entries are kept. */
  predicate Keep(f: RawFormat)
  {
    f.vcodec != Some("none") || (f.acodec != Some("none") && f.vcodec == Some("none"))
  }

  lemma KeepIffNotBothNone(f: RawFormat)
    ensures Keep(f) <==> !(f.vcodec == Some("none") && f.acodec == Some("none"))
  {
  }

  /** `f.get('filesize') or f.get('filesize_approx')`, then the truthiness test. */
  function SizeBytes(f: RawFormat): (r: Option<nat>)
    ensures r.Some? ==> r.value > 0
    ensures f.filesize.Some? && f.filesize.value > 0 ==> r == f.filesize
    ensures !(f.filesize.Some? && f.filesize.value > 0) ==>
      r == if f.filesizeApprox.Some? && f.filesizeApprox.value > 0 then f.filesizeApprox else None
    ensures r.None? ==> (f.filesize.None? || f.filesize == Some(0)) && (f.filesizeApprox.None? || f.filesizeApprox == Some(0))
  {
    var b := if f.filesize.Some? && f.filesize.value > 0 then f.filesize else f.filesizeApprox;
    if b.Some? && b.value > 0 then b else None
  }

  /** `_format_size` applied to an already jittered byte count: the unit thresholds. */
  function FormatSize(v: real): SizeLabel
  {
    if v < KiB then Bytes(v)
    else if v < MiB then Kilo(v / KiB)
    else if v < GiB then Mega(v / MiB)
    else Giga(v / GiB)
  }

  /** `_size_to_sortable`: KB, MB and GB labels on a common KB scale, everything else 0. */
  function SizeToSortable(l: SizeLabel): real
  {
    match l
    case Kilo(x) => x
    case Mega(x) => x * 1024.0
    case Giga(x) => x * 1024.0 * 1024.0
    case _ => 0.0
  }

  /** Parsing a label back gives the size in KB, except that labels below 1 KB give 0. */
  lemma SortKeyOfFormattedSize(v: real)
    requires v >= 0.0
    ensures SizeToSortable(FormatSize(v)) == if v < KiB then 0.0 else v / KiB
  {
  }

  /** So the sort key never reverses the order of the (jittered) byte counts. */
  lemma SortKeyMonotone(v: real, w: real)
    requires 0.0 <= v <= w
    ensures SizeToSortable(FormatSize(v)) <= SizeToSortable(FormatSize(w))
  {
    SortKeyOfFormattedSize(v);
    SortKeyOfFormattedSize(w);
  }

  /** The jitter factor of `random.uniform(0.9, 1.1)`. */
  predicate JitterFactor(j: real) {
    0.9 <= j <= 1.1
  }

  /** The descriptor built for a kept entry, with `factor` the jitter drawn for it. */
  function Project(f: RawFormat, factor: real): (d: Descriptor)
    requires f.formatId.Some?
    requires JitterFactor(factor)
    ensures Key(d) >= 0.0
    ensures d.filesize.NoSize? <==> SizeBytes(f).None?
  {
    var audioOnly := f.vcodec == Some("none");
    Descriptor(
      f.formatId.value,
      f.ext.GetOr(NotAvailable),
      if audioOnly then AudioOnlyLabel else f.formatNote.GetOr(NotAvailable),
      match SizeBytes(f) case Some(n) => FormatSize(n as real * factor) case None => NoSize,
      if audioOnly then f.acodec else f.vcodec)
  }

  /** An audio-only entry is marked by the sentinel, so the format list (which hides
      every resolution containing it) never offers it for a merged download; its note is
      the audio codec.  Any other entry keeps its format note, "N/A" when it has none,
      and its note is the video codec. */
  lemma AudioOnlyEntryIsMarked(f: RawFormat, factor: real)
    requires f.formatId.Some? && JitterFactor(factor)
    ensures f.vcodec == Some("none") ==>
      Contains(Project(f, factor).resolution, AudioOnlyLabel) && Project(f, factor).note == f.acodec
    ensures f.vcodec != Some("none") ==>
      Project(f, factor).resolution == f.formatNote.GetOr(NotAvailable) && Project(f, factor).note == f.vcodec
  {
    if f.vcodec == Some("none") {
      assert Project(f, factor).resolution[..|AudioOnlyLabel|] == AudioOnlyLabel;
    }
  }

  /** Every kept entry has an id (otherwise `f['format_id']` raises). */
  predicate IdsPresent(entries: seq<RawFormat>)
  {
    forall i :: 0 <= i < |entries| && Keep(entries[i]) ==> entries[i].formatId.Some?
  }

  predicate JitterFits(entries: seq<RawFormat>, jitter: seq<real>)
  {
    |jitter| == |entries| && forall i :: 0 <= i < |jitter| ==> JitterFactor(jitter[i])
  }

  /** The list the loop of `_fetch_formats` builds, before sorting. */
  function Projected(entries: seq<RawFormat>, jitter: seq<real>): seq<Descriptor>
    requires JitterFits(entries, jitter) && IdsPresent(entries)
    decreases |entries|
  {
    if entries == [] then []
    else
      var n := |entries| - 1;
      Projected(entries[..n], jitter[..n])
        + (if Keep(entries[n]) then [Project(entries[n], jitter[n])] else [])
  }

  /** The unsorted list holds exactly the projections of the kept entries, in input order. */
  lemma {:induction false} ProjectedMembership(entries: seq<RawFormat>, jitter: seq<real>, d: Descriptor)
    requires JitterFits(entries, jitter) && IdsPresent(entries)
    ensures d in Projected(entries, jitter) <==>
            exists i :: 0 <= i < |entries| && Keep(entries[i]) && d == Project(entries[i], jitter[i])
  {
    if entries != [] {
      var n := |entries| - 1;
      ProjectedMembership(entries[..n], jitter[..n], d);
      if d in Projected(entries, jitter) && d !in Projected(entries[..n], jitter[..n]) {
        assert Keep(entries[n]) && d == Project(entries[n], jitter[n]);
      }
      if exists i :: 0 <= i < |entries| && Keep(entries[i]) && d == Project(entries[i], jitter[i]) {
        var i :| 0 <= i < |entries| && Keep(entries[i]) && d == Project(entries[i], jitter[i]);
        if i < n {
          assert entries[..n][i] == entries[i] && jitter[..n][i] == jitter[i];
        }
      }
    }
  }

  /** Every key of the unsorted list is non-negative. */
  lemma {:induction false} ProjectedKeysNonNegative(entries: seq<RawFormat>, jitter: seq<real>)
    requires JitterFits(entries, jitter) && IdsPresent(entries)
    ensures forall k :: 0 <= k < |Projected(entries, jitter)| ==> Key(Projected(entries, jitter)[k]) >= 0.0
  {
    if entries != [] {
      var n := |entries| - 1;
      ProjectedKeysNonNegative(entries[..n], jitter[..n]);
    }
  }

  // ------------------------------------------------------------------
  // The sort: `formats.sort(key=_size_to_sortable(filesize), reverse=True)`,
  // a stable sort in descending key order.
  // ------------------------------------------------------------------

  function Key(d: Descriptor): real {
    SizeToSortable(d.filesize)
  }

  predicate SortedBySize(s: seq<Descriptor>) {
    forall i, j :: 0 <= i < j < |s| ==> Key(s[i]) >= Key(s[j])
  }

  /** The elements of `s` whose key is `k`, in their order in `s`. */
  function WithKey(s: seq<Descriptor>, k: real): seq<Descriptor>
  {
    if s == [] then [] else (if Key(s[0]) == k then [s[0]] else []) + WithKey(s[1..], k)
  }

  /** Puts `x` before the first element whose key is not larger than its own. */
  function InsertBySize(x: Descriptor, s: seq<Descriptor>): seq<Descriptor>
  {
    if s == [] || Key(x) >= Key(s[0]) then [x] + s
    else [s[0]] + InsertBySize(x, s[1..])
  }

  function SortBySize(s: seq<Descriptor>): seq<Descriptor>
  {
    if s == [] then [] else InsertBySize(s[0], SortBySize(s[1..]))
  }

  lemma {:induction false} InsertBySizePermutes(x: Descriptor, s: seq<Descriptor>)
    ensures multiset(InsertBySize(x, s)) == multiset(s) + multiset{x}
  {
    if !(s == [] || Key(x) >= Key(s[0])) {
      InsertBySizePermutes(x, s[1..]);
      assert s == [s[0]] + s[1..];
    }
  }

  lemma {:induction false} InsertBySizeSorted(x: Descriptor, s: seq<Descriptor>)
    requires SortedBySize(s)
    ensures SortedBySize(InsertBySize(x, s))
  {
    if !(s == [] || Key(x) >= Key(s[0])) {
      var t := InsertBySize(x, s[1..]);
      InsertBySizeSorted(x, s[1..]);
      InsertBySizePermutes(x, s[1..]);
      forall i | 0 <= i < |t| ensures Key(s[0]) >= Key(t[i]) {
        var e := t[i];
        assert e in multiset(t);
        if e != x {
          assert e in multiset(s[1..]);
          var m :| 0 <= m < |s[1..]| && s[1..][m] == e;
          assert s[m + 1] == e;
        }
      }
    }
  }

  lemma {:induction false} WithKeyConcat(a: seq<Descriptor>, b: seq<Descriptor>, k: real)
    ensures WithKey(a + b, k) == WithKey(a, k) + WithKey(b, k)
  {
    if a == [] {
      assert a + b == b;
    } else {
      assert (a + b)[0] == a[0];
      assert (a + b)[1..] == a[1..] + b;
      WithKeyConcat(a[1..], b, k);
    }
  }

  lemma {:induction false} InsertBySizeStable(x: Descriptor, s: seq<Descriptor>, k: real)
    requires SortedBySize(s)
    ensures WithKey(InsertBySize(x, s), k) == (if Key(x) == k then [x] else []) + WithKey(s, k)
  {
    if s == [] || Key(x) >= Key(s[0]) {
      WithKeyConcat([x], s, k);
      if s != [] && Key(x) == k {
        assert WithKey([x], k) == [x];
      }
    } else {
      InsertBySizeStable(x, s[1..], k);
      WithKeyConcat([s[0]], InsertBySize(x, s[1..]), k);
      WithKeyConcat([s[0]], s[1..], k);
      assert s == [s[0]] + s[1..];
    }
  }

  /** The sort yields a non-increasing permutation of its input that keeps the input
      order among entries with equal keys (Python's sort is stable, also with reverse=True). */
  lemma {:induction false} SortBySizeCorrect(s: seq<Descriptor>)
    ensures SortedBySize(SortBySize(s))
    ensures multiset(SortBySize(s)) == multiset(s)
    ensures forall k :: WithKey(SortBySize(s), k) == WithKey(s, k)
  {
    if s != [] {
      SortBySizeCorrect(s[1..]);
      InsertBySizeSorted(s[0], SortBySize(s[1..]));
      InsertBySizePermutes(s[0], SortBySize(s[1..]));
      forall k ensures WithKey(SortBySize(s), k) == WithKey(s, k) {
        InsertBySizeStable(s[0], SortBySize(s[1..]), k);
        WithKeyConcat([s[0]], s[1..], k);
      }
      assert s == [s[0]] + s[1..];
    }
  }

  /** In a sorted list with non-negative keys, nothing with a real size follows an
      entry whose size is "N/A": unsized entries sort last. */
  lemma UnsizedSortLast(s: seq<Descriptor>, i: int, j: int)
    requires SortedBySize(s)
    requires forall k :: 0 <= k < |s| ==> Key(s[k]) >= 0.0
    requires 0 <= i < j < |s| && s[i].filesize.NoSize?
    ensures Key(s[j]) == 0.0
  {
  }

  /**
   * `_fetch_formats`: appends the descriptor of every kept entry, then sorts. Discovery
   * fails as a whole (no partial list) when the extractor fails or a kept entry has no id.
   */
  method FetchFormats(x: Extraction, jitter: seq<real>) returns (r: FetchResult)
    requires x.Extracted? ==> JitterFits(x.formats.GetOr([]), jitter)
    ensures x.ExtractionFailed? ==> r == FetchFailed(FetchErrorPrefix + x.cause)
    ensures x.Extracted? && !IdsPresent(x.formats.GetOr([])) ==> r == FetchFailed(FetchErrorPrefix + MissingIdCause)
    ensures x.Extracted? && IdsPresent(x.formats.GetOr([])) ==>
              r.FormatsReady? && r.title == x.title.GetOr(DefaultTitle)
              && SortedBySize(r.formats)
              && multiset(r.formats) == multiset(Projected(x.formats.GetOr([]), jitter))
              && (forall k :: WithKey(r.formats, k) == WithKey(Projected(x.formats.GetOr([]), jitter), k))
              && (forall k :: 0 <= k < |r.formats| ==> Key(r.formats[k]) >= 0.0)
  {
    if x.ExtractionFailed? {
      return FetchFailed(FetchErrorPrefix + x.cause);
    }
    var entries := x.formats.GetOr([]);
    var formats: seq<Descriptor> := [];
    var i := 0;
    while i < |entries|
      invariant 0 <= i <= |entries|
      invariant IdsPresent(entries[..i])
      invariant formats == Projected(entries[..i], jitter[..i])
    {
      var f := entries[i];
      assert entries[..i + 1][..i] == entries[..i] && jitter[..i + 1][..i] == jitter[..i];
      if Keep(f) {
        if f.formatId.None? {
          return FetchFailed(FetchErrorPrefix + MissingIdCause);
        }
        formats := formats + [Project(f, jitter[i])];
      }
      i := i + 1;
    }
    assert entries[..i] == entries && jitter[..i] == jitter;
    ProjectedKeysNonNegative(entries, jitter);
    SortBySizeCorrect(formats);
    var sorted := SortBySize(formats);
    forall k | 0 <= k < |sorted| ensures Key(sorted[k]) >= 0.0 {
      assert sorted[k] in multiset(formats);
    }
    r := FormatsReady(sorted, x.title.GetOr(DefaultTitle));
  }
}

=== FILE: options.dfy ===
/**
 * The option builder of the download page: what `YtdlpGui.start_download` derives from
 * the checkboxes and the selected format (download type, format-selection expression,
 * post-processor list), the height bound taken from a resolution label, the filter of
 * `update_page2_formats`, and the checkbox reducer `_handle_download_option_change`
 * with its `can_download` predicate.
 */
module Options {
  import opened Common
  import opened Formats

  // ------------------------------------------------------------------
  // Height bound: the first run of digits of the resolution label, else "2160".
  // ------------------------------------------------------------------

  const DefaultHeight: string := "2160"

  predicate NoDigit(s: string) {
    forall k :: 0 <= k < |s| ==> !IsDigit(s[k])
  }

  /** `s[i..j]` is the first maximal run of digits of `s`. */
  predicate IsFirstDigitRun(s: string, i: int, j: int) {
    && 0 <= i < j <= |s|
    && (forall k :: 0 <= k < i ==> !IsDigit(s[k]))
    && (forall k :: i <= k < j ==> IsDigit(s[k]))
    && (j == |s| || !IsDigit(s[j]))
  }

  /** Index of the first digit at or after `i`, or `|s|`. */
  function FirstDigitFrom(s: string, i: nat): (k: nat)
    requires i <= |s|
    ensures i <= k <= |s|
    ensures forall m :: i <= m < k ==> !IsDigit(s[m])
    ensures k < |s| ==> IsDigit(s[k])
    decreases |s| - i
  {
    if i == |s| || IsDigit(s[i]) then i else FirstDigitFrom(s, i + 1)
  }

  /** End of the run of digits that starts at `i`. */
  function DigitRunEnd(s: string, i: nat): (j: nat)
    requires i <= |s|
    ensures i <= j <= |s|
    ensures forall m :: i <= m < j ==> IsDigit(s[m])
    ensures j < |s| ==> !IsDigit(s[j])
    decreases |s| - i
  {
    if i == |s| || !IsDigit(s[i]) then i else DigitRunEnd(s, i + 1)
  }

  /** `re.search(r'(\d+)', resolution)`'s group, or "2160" when it does not match. */
  function HeightBound(res: string): (h: string)
    ensures h != [] && AllDigits(h)
    ensures NoDigit(res) ==> h == DefaultHeight
    ensures !NoDigit(res) ==> exists i, j :: IsFirstDigitRun(res, i, j) && h == res[i..j]
  {
    var i := FirstDigitFrom(res, 0);
    if i == |res| then DefaultHeight
    else
      var j := DigitRunEnd(res, i);
      assert IsFirstDigitRun(res, i, j);
      res[i..j]
  }

  /** There is only one first digit run, so the bound is determined by the label. */
  lemma FirstDigitRunUnique(s: string, i: int, j: int, i': int, j': int)
    requires IsFirstDigitRun(s, i, j) && IsFirstDigitRun(s, i', j')
    ensures i == i' && j == j'
  {
    assert IsDigit(s[i]) && IsDigit(s[i']);
  }

  lemma HeightBoundExamples()
    ensures HeightBound("1080p") == "1080"
    ensures HeightBound("720p60") == "720"
    ensures HeightBound("medium") == DefaultHeight
  {
    assert FirstDigitFrom("1080p", 0) == 0;
    assert DigitRunEnd("1080p", 4) == 4;
    assert DigitRunEnd("1080p", 3) == 4;
    assert DigitRunEnd("1080p", 2) == 4;
    assert DigitRunEnd("1080p", 1) == 4;
    assert DigitRunEnd("1080p", 0) == 4;
    assert FirstDigitFrom("720p60", 0) == 0;
    assert DigitRunEnd("720p60", 3) == 3;
    assert DigitRunEnd("720p60", 2) == 3;
    assert DigitRunEnd("720p60", 1) == 3;
    assert DigitRunEnd("720p60", 0) == 3;
    assert NoDigit("medium");
  }

  // ------------------------------------------------------------------
  // The format-selection expression of a merged download, and its inverse.
  // ------------------------------------------------------------------

  const VideoHead: string := "bestvideo[height<="
  const ExtOpen: string := "][ext="
  const AudioMid: string := "]+bestaudio[ext="
  const FallbackHead: string := "]/bestvideo[height<="
  const AudioTail: string := "]+bestaudio"

  /** Best video at most `h` high in container `e` merged with best audio in `e`,
      falling back to best video at most `h` high merged with any best audio. */
  function MergedFormat(h: string, e: string): string
  {
    VideoHead + (h + (ExtOpen + (e + MergedTail(h, e))))
  }

  /** What follows the container in the merged expression. */
  function MergedTail(h: string, e: string): string
  {
    AudioMid + e + FallbackHead + h + AudioTail
  }

  /** The longest prefix of `s` free of `c`. */
  function UpTo(s: string, c: char): (r: string)
    ensures |r| <= |s| && r == s[..|r|] && HasNoChar(r, c)
    ensures |r| < |s| ==> s[|r|] == c
  {
    if s == [] || s[0] == c then [] else [s[0]] + UpTo(s[1..], c)
  }

  lemma {:induction false} UpToStopsAt(a: string, b: string, c: char)
    requires HasNoChar(a, c) && b != [] && b[0] == c
    ensures UpTo(a + b, c) == a
  {
    if a != [] {
      assert (a + b)[1..] == a[1..] + b;
      UpToStopsAt(a[1..], b, c);
    } else {
      assert a + b == b;
    }
  }

  /** Reads the height bound and the container back out of a merged expression. */
  function ParseMerged(s: string): Option<(string, string)>
  {
    if |s| < |VideoHead| || s[..|VideoHead|] != VideoHead then None
    else
      var r1 := s[|VideoHead|..];
      var h := UpTo(r1, ']');
      var r2 := r1[|h|..];
      if |r2| < |ExtOpen| || r2[..|ExtOpen|] != ExtOpen then None
      else
        var r3 := r2[|ExtOpen|..];
        var e := UpTo(r3, ']');
        if r3[|e|..] == MergedTail(h, e) then Some((h, e)) else None
  }

  /** The expression carries the height bound and the container it was built from. */
  lemma MergedFormatRoundTrip(h: string, e: string)
    requires HasNoChar(h, ']') && HasNoChar(e, ']')
    ensures ParseMerged(MergedFormat(h, e)) == Some((h, e))
  {
    var tail := MergedTail(h, e);
    var r3 := e + tail;
    var r2 := ExtOpen + r3;
    var r1 := h + r2;
    var s := VideoHead + r1;
    assert s[..|VideoHead|] == VideoHead;
    assert s[|VideoHead|..] == r1;
    assert tail[0] == ']';
    UpToStopsAt(h, r2, ']');
    assert r1[|h|..] == r2;
    assert r2[..|ExtOpen|] == ExtOpen;
    assert r2[|ExtOpen|..] == r3;
    UpToStopsAt(e, tail, ']');
    assert r3[|e|..] == tail;
  }

  /** Different bounds or containers never give the same expression. */
  lemma MergedFormatInjective(h: string, e: string, h': string, e': string)
    requires HasNoChar(h, ']') && HasNoChar(e, ']') && HasNoChar(h', ']') && HasNoChar(e', ']')
    requires MergedFormat(h, e) == MergedFormat(h', e')
    ensures h == h' && e == e'
  {
    MergedFormatRoundTrip(h, e);
    MergedFormatRoundTrip(h', e');
  }

  // ------------------------------------------------------------------
  // The options dictionary `start_download` hands to the download job.
  // ------------------------------------------------------------------

  /** Entries of the post-processor list. */
  datatype PostProcessor =
    | VideoConvertor(preferedformat: string)
    | ExtractAudio(preferredcodec: string, preferredquality: string)

  datatype DownloadType = NoType | MergedVideoAudio | AudioOnly | Auxiliary

  /** The `options` dict: 'format', 'postprocessor', 'write_description', 'write_thumbnail', 'title_slug'. */
  datatype DownloadOptions = DownloadOptions(
    format: string,
    postprocessors: seq<PostProcessor>,
    writeDescription: bool,
    writeThumbnail: bool,
    titleSlug: string)

  /** The format value that asks for the side artifacts only. */
  const NoMedia: string := "none"
  const BestAudio: string := "bestaudio/best"

  /** The four checkboxes of the download page. */
  datatype Boxes = Boxes(merged: bool, audioOnly: bool, thumbnail: bool, description: bool)

  /** Why `start_download` returns without starting a job. */
  datatype Refusal =
    | NoQualitySelected  // merged checked but no list item current
    | NothingSelected    // no checkbox checked

  datatype DownloadPlan = Dispatch(kind: DownloadType, options: DownloadOptions) | Refuse(reason: Refusal)

  /** The decision `start_download` makes; `current` is the list's current item. */
  function BuildDownload(b: Boxes, current: Option<Descriptor>, slug: string): DownloadPlan
  {
    var base := DownloadOptions(NoMedia, [], b.description, b.thumbnail, slug);
    if b.merged then
      match current
      case None => Refuse(NoQualitySelected)
      case Some(fmt) =>
        var height := HeightBound(fmt.resolution);
        Dispatch(MergedVideoAudio,
                 base.(format := MergedFormat(height, fmt.ext), postprocessors := [VideoConvertor(fmt.ext)]))
    else if b.audioOnly then
      Dispatch(AudioOnly, base.(format := BestAudio, postprocessors := [ExtractAudio("mp3", "192")]))
    else if b.thumbnail || b.description then
      Dispatch(Auxiliary, base)
    else
      Refuse(NothingSelected)
  }

  /** The decision table of `start_download`. */
  lemma DownloadDecision(b: Boxes, current: Option<Descriptor>, slug: string)
    ensures var p := BuildDownload(b, current, slug);
      && (p.Dispatch? ==>
            && p.kind != NoType
            && p.options.writeDescription == b.description
            && p.options.writeThumbnail == b.thumbnail
            && p.options.titleSlug == slug)
      && (b.merged && current.None? ==> p == Refuse(NoQualitySelected))
      && (b.merged && current.Some? ==>
            p.Dispatch? && p.kind == MergedVideoAudio
            && p.options.format == MergedFormat(HeightBound(current.value.resolution), current.value.ext)
            && p.options.postprocessors == [VideoConvertor(current.value.ext)])
      && (!b.merged && b.audioOnly ==>
            p.Dispatch? && p.kind == AudioOnly && p.options.format == BestAudio
            && p.options.postprocessors == [ExtractAudio("mp3", "192")])
      && (!b.merged && !b.audioOnly && (b.thumbnail || b.description) ==>
            p.Dispatch? && p.kind == Auxiliary && p.options.format == NoMedia && p.options.postprocessors == [])
      && (!b.merged && !b.audioOnly && !b.thumbnail && !b.description ==> p == Refuse(NothingSelected))
  {
  }

  /** The 'none' format is used exactly by auxiliary-only jobs, so the job's own
      branch on the format agrees with the GUI's download type. */
  lemma NoMediaIffAuxiliary(b: Boxes, current: Option<Descriptor>, slug: string)
    requires BuildDownload(b, current, slug).Dispatch?
    ensures var p := BuildDownload(b, current, slug);
      p.options.format == NoMedia <==> p.kind == Auxiliary
  {
    var p := BuildDownload(b, current, slug);
    if p.kind == MergedVideoAudio {
      assert |p.options.format| >= |VideoHead| > |NoMedia|;
    } else if p.kind == AudioOnly {
      assert |BestAudio| != |NoMedia|;
    }
  }

  /** The merged expression bounds the height by the first digit run of the selected
      res and restricts both streams to the selected container. */
  lemma MergedDownloadCarriesSelection(b: Boxes, fmt: Descriptor, slug: string)
    requires b.merged && HasNoChar(fmt.ext, ']')
    ensures var p := BuildDownload(b, Some(fmt), slug);
      p.Dispatch? && ParseMerged(p.options.format) == Some((HeightBound(fmt.resolution), fmt.ext))
  {
    var h := HeightBound(fmt.resolution);
    assert HasNoChar(h, ']') by {
      forall k | 0 <= k < |h| ensures h[k] != ']' {
        assert IsDigit(h[k]);
      }
    }
    MergedFormatRoundTrip(h, fmt.ext);
  }

  // ------------------------------------------------------------------
  // `_handle_download_option_change` and `can_download`.
  // ------------------------------------------------------------------

  /** The state the handler reads and writes: the checkboxes, whether the format list
      has a current item, and the enabled state of the list and of the download button. */
  datatype Panel = Panel(boxes: Boxes, hasCurrentItem: bool, listEnabled: bool, downloadEnabled: bool)

  /** Which widget's signal invoked the handler (`self.sender()`). */
  datatype Sender = MergedBox | AudioBox | ThumbnailBox | DescriptionBox | FormatsList

  predicate CanDownload(b: Boxes, hasCurrentItem: bool) {
    (b.merged && hasCurrentItem) || b.audioOnly || b.thumbnail || b.description
  }

  /** The handler: a checked merged box clears audio-only and vice versa, then the list
      is enabled with merged and the button with `can_download`. */
  function OnOptionChange(p: Panel, sender: Sender): Panel
  {
    var b := p.boxes;
    var b1 := if sender == MergedBox && b.merged then b.(audioOnly := false) else b;
    var b2 := if sender == AudioBox && b.audioOnly then b1.(merged := false) else b1;
    Panel(b2, p.hasCurrentItem, b2.merged, CanDownload(b2, p.hasCurrentItem))
  }

  function Flip(b: Boxes, box: Sender): Boxes {
    match box
    case MergedBox => b.(merged := !b.merged)
    case AudioBox => b.(audioOnly := !b.audioOnly)
    case ThumbnailBox => b.(thumbnail := !b.thumbnail)
    case DescriptionBox => b.(description := !b.description)
    case FormatsList => b
  }

  /** A user click on a checkbox: its state flips, then its `stateChanged` runs the handler. */
  function Toggle(p: Panel, box: Sender): Panel {
    OnOptionChange(p.(boxes := Flip(p.boxes, box)), box)
  }

  predicate Exclusive(b: Boxes) {
    !(b.merged && b.audioOnly)
  }

  /** The handler's postconditions: the two media boxes end up exclusive whenever the
      sender was the one just checked, the list is enabled iff merged is checked, and the
      button is enabled iff `can_download` holds. */
  lemma OptionChangeEffect(p: Panel, sender: Sender)
    ensures var r := OnOptionChange(p, sender);
      && r.listEnabled == r.boxes.merged
      && r.downloadEnabled == CanDownload(r.boxes, r.hasCurrentItem)
      && r.hasCurrentItem == p.hasCurrentItem
      && r.boxes.thumbnail == p.boxes.thumbnail && r.boxes.description == p.boxes.description
      && (sender == MergedBox && p.boxes.merged ==> r.boxes.merged && !r.boxes.audioOnly)
      && (sender == AudioBox && p.boxes.audioOnly ==> r.boxes.audioOnly && !r.boxes.merged)
      && (Exclusive(p.boxes) ==> r.boxes == p.boxes)
  {
  }

  /** Starting from exclusive boxes, every click keeps them exclusive; checking one media
      box unchecks the other. */
  lemma ToggleKeepsExclusive(p: Panel, box: Sender)
    requires Exclusive(p.boxes)
    ensures Exclusive(Toggle(p, box).boxes)
    ensures box == MergedBox && !p.boxes.merged ==> Toggle(p, box).boxes.merged && !Toggle(p, box).boxes.audioOnly
    ensures box == AudioBox && !p.boxes.audioOnly ==> Toggle(p, box).boxes.audioOnly && !Toggle(p, box).boxes.merged
  {
  }

  /** The download button is enabled after the handler exactly when `start_download`
      would start a job, except that merged without a current item still enables it
      (through another box) while `start_download` refuses. */
  lemma CanDownloadVersusDecision(b: Boxes, current: Option<Descriptor>, slug: string)
    ensures BuildDownload(b, current, slug).Dispatch? <==> CanDownload(b, current.Some?) && (b.merged ==> current.Some?)
  {
  }

  // ------------------------------------------------------------------
  // `update_page2_formats`: only entries that are not audio-only are listed.
  // ------------------------------------------------------------------

  /** The test `'صوت فقط' not in fmt['resolution']`. */
  predicate IsListed(d: Descriptor) {
    !Contains(d.resolution, AudioOnlyLabel)
  }

  function ListedFormats(formats: seq<Descriptor>): seq<Descriptor>
  {
    if formats == [] then []
    else (if IsListed(formats[0]) then [formats[0]] else []) + ListedFormats(formats[1..])
  }

  lemma {:induction false} ListedFormatsMembership(formats: seq<Descriptor>, d: Descriptor)
    ensures d in ListedFormats(formats) <==> d in formats && IsListed(d)
  {
    if formats != [] {
      ListedFormatsMembership(formats[1..], d);
      assert formats == [formats[0]] + formats[1..];
    }
  }

  /** Listing one more format appends it exactly when it is listed; the list is
      filled entry by entry in this order. */
  lemma {:induction false} ListedFormatsSnoc(formats: seq<Descriptor>, d: Descriptor)
    ensures ListedFormats(formats + [d]) == ListedFormats(formats) + (if IsListed(d) then [d] else [])
  {
    if formats == [] {
      assert [] + [d] == [d];
      assert [d][1..] == [];
    } else {
      var head := if IsListed(formats[0]) then [formats[0]] else [];
      var tail := if IsListed(d) then [d] else [];
      assert (formats + [d])[0] == formats[0];
      assert (formats + [d])[1..] == formats[1..] + [d];
      assert ListedFormats(formats + [d]) == head + ListedFormats(formats[1..] + [d]);
      ListedFormatsSnoc(formats[1..], d);
      assert head + (ListedFormats(formats[1..]) + tail) == (head + ListedFormats(formats[1..])) + tail;
    }
  }

  lemma SortedCons(x: Descriptor, s: seq<Descriptor>)
    requires SortedBySize(s)
    requires forall d :: d in s ==> Key(x) >= Key(d)
    ensures SortedBySize([x] + s)
  {
    var r := [x] + s;
    forall i, j | 0 <= i < j < |r| ensures Key(r[i]) >= Key(r[j]) {
      assert r[j] == s[j - 1];
      if i > 0 {
        assert r[i] == s[i - 1];
      } else {
        assert s[j - 1] in s;
      }
    }
  }

  /** The list keeps the sorted order of the discovered formats. */
  lemma {:induction false} ListedFormatsSorted(formats: seq<Descriptor>)
    requires SortedBySize(formats)
    ensures SortedBySize(ListedFormats(formats))
  {
    if formats != [] {
      var rest := ListedFormats(formats[1..]);
      ListedFormatsSorted(formats[1..]);
      if IsListed(formats[0]) {
        forall d | d in rest ensures Key(formats[0]) >= Key(d) {
          ListedFormatsMembership(formats[1..], d);
          var m :| 0 <= m < |formats[1..]| && formats[1..][m] == d;
          assert formats[m + 1] == d;
        }
        SortedCons(formats[0], rest);
      } else {
        assert ListedFormats(formats) == rest;
      }
    }
  }
}

=== FILE: workflow.dfy ===
/**
 * The main window as a stage machine.  The stacked widget's index is the
 * stage: 0 URL input, 1 download options, 2 conversion, 3 finish.  Each Qt
 * handler is a method of `Gui`; a widget call that emits a signal
 * (`setChecked`, `clear`, `setCurrentIndex` on a combo) runs the connected
 * handler at once, as Qt does for direct connections, only when the value
 * really changes.
 *
 * Workers are not owned here: starting one returns the options handed to
 * it, and the events it emits come back through `OnFormatsReady`,
 * `OnError`, `OnDownloadFinished`, `OnDownloadError` and
 * `OnConversionFinished`.
 */
module Workflow {
  import opened Common
  import opened Formats
  import opened Options
  import opened Conversion

  /** An index of the stacked widget's four pages. */
  type Stage = s: nat | s <= 3

  const FetchPage: Stage := 0
  const OptionsPage: Stage := 1
  const ConvertPage: Stage := 2
  const FinishPage: Stage := 3

  /** The slug keeps at most this many characters of `slugify(title)`. */
  const SlugLimit: nat := 100

  const NoBoxes := Boxes(false, false, false, false)

  predicate Checked(b: Boxes, box: Sender) {
    match box
    case MergedBox => b.merged
    case AudioBox => b.audioOnly
    case ThumbnailBox => b.thumbnail
    case DescriptionBox => b.description
    case FormatsList => false
  }

  function CheckedCount(b: Boxes): nat {
    (if b.merged then 1 else 0) + (if b.audioOnly then 1 else 0)
      + (if b.thumbnail then 1 else 0) + (if b.description then 1 else 0)
  }

  datatype Combo = CodecCombo | ContainerCombo | ImageCombo

  function ComboSize(c: Combo): nat {
    match c
    case CodecCombo => |CodecChoices|
    case ContainerCombo => |ContainerChoices|
    case ImageCombo => |ImageChoices|
  }

  /** `slugify(title)[:100]`. */
  function Truncated(s: string, n: nat): (t: string)
    ensures |t| == if |s| <= n then |s| else n
    ensures t == s[..|t|]
  {
    if |s| <= n then s else s[..n]
  }

  predicate PanelInvariant(boxes: Boxes, listEnabled: bool) {
    Exclusive(boxes) && listEnabled == boxes.merged
  }

  predicate ListInvariant(listed: seq<Descriptor>, formats: seq<Descriptor>, current: Option<nat>) {
    && listed == ListedFormats(formats)
    && (current.Some? ==> current.value < |listed|)
  }

  predicate WindowInvariant(boxes: Boxes, listEnabled: bool, listed: seq<Descriptor>, formats: seq<Descriptor>,
                            current: Option<nat>, slug: string, codec: nat, container: nat, image: nat)
  {
    && PanelInvariant(boxes, listEnabled)
    && ListInvariant(listed, formats, current)
    && |slug| <= SlugLimit
    && ComboIndices(codec, container, image)
  }

  class Gui {
    var stage: Stage
    var youtubeUrl: string
    var videoFormats: seq<Descriptor>
    var videoTitle: string
    var videoTitleSlug: string
    var downloadType: DownloadType
    var downloadedFile: Option<string>
    var isDownloadComplete: bool
    /** The four checkboxes of page 2. */
    var boxes: Boxes
    /** The items of the formats list, and the index of its current item. */
    var listed: seq<Descriptor>
    var current: Option<nat>
    var listEnabled: bool
    var downloadEnabled: bool
    var cancelEnabled: bool
    var backOptionsEnabled: bool
    var nextEnabled: bool
    var codecIndex: nat
    var containerIndex: nat
    var imageIndex: nat
    var convertEnabled: bool
    var cancelConvertEnabled: bool
    var backConvertEnabled: bool

    /**
     * What every handler keeps: media boxes that are never both checked, a
     * formats list enabled with the merged box and holding exactly the
     * listed formats, a current item inside the list, a slug of at most 100
     * characters and combo indices inside their combos.
     */
    predicate Valid()
      reads this`boxes, this`listEnabled, this`listed, this`videoFormats, this`current,
            this`videoTitleSlug, this`codecIndex, this`containerIndex, this`imageIndex
    {
      WindowInvariant(boxes, listEnabled, listed, videoFormats, current, videoTitleSlug,
                      codecIndex, containerIndex, imageIndex)
    }

    /** The part of the window `_handle_download_option_change` reads and writes. */
    function OptionPanel(): Panel
      reads this`boxes, this`current, this`listEnabled, this`downloadEnabled
    {
      Panel(boxes, current.Some?, listEnabled, downloadEnabled)
    }

    /** The format stored in the list's current item. */
    function CurrentFormat(): Option<Descriptor>
      reads this`current, this`listed
    {
      if current.Some? && current.value < |listed| then Some(listed[current.value]) else None
    }

    function ComboIndex(c: Combo): nat
      reads this`codecIndex, this`containerIndex, this`imageIndex
    {
      match c
      case CodecCombo => codecIndex
      case ContainerCombo => containerIndex
      case ImageCombo => imageIndex
    }

    /** The window right after `__init__`. */
    constructor ()
      ensures Valid()
      ensures stage == FetchPage && youtubeUrl == "" && videoFormats == [] && videoTitle == "" && videoTitleSlug == ""
      ensures downloadType == NoType && downloadedFile == None && !isDownloadComplete
      ensures boxes == NoBoxes && listed == [] && current == None && !listEnabled
      ensures !downloadEnabled && !cancelEnabled && backOptionsEnabled && nextEnabled
      ensures codecIndex == 0 && containerIndex == 0 && imageIndex == 0
      ensures !convertEnabled && !cancelConvertEnabled && backConvertEnabled
    {
      stage := FetchPage;
      youtubeUrl, videoFormats, videoTitle, videoTitleSlug := "", [], "", "";
      downloadType, downloadedFile, isDownloadComplete := NoType, None, false;
      boxes, listed, current := NoBoxes, [], None;
      listEnabled, downloadEnabled, cancelEnabled := false, false, false;
      backOptionsEnabled, nextEnabled := true, true;
      codecIndex, containerIndex, imageIndex := 0, 0, 0;
      convertEnabled, cancelConvertEnabled, backConvertEnabled := false, false, true;
    }

    // -------------------------------------------------------------------
    // Page 1
    // -------------------------------------------------------------------

    /**
     * `check_url_and_go_next`.  `url` is the stripped text of the line edit,
     * `isYoutubeLink` the verdict of `is_youtube_link` and `cleaned` what
     * `clean_url` makes of it.  Returns the URL handed to a new format
     * fetching worker, if one starts.
     */
    method SubmitUrl(url: string, isYoutubeLink: bool, cleaned: string) returns (fetch: Option<string>)
      requires Valid()
      modifies this`youtubeUrl, this`nextEnabled
      ensures Valid()
      ensures url == [] || !isYoutubeLink ==>
        fetch.None? && youtubeUrl == old(youtubeUrl) && nextEnabled == old(nextEnabled)
      ensures url != [] && isYoutubeLink ==> fetch == Some(cleaned) && youtubeUrl == cleaned && !nextEnabled
    {
      if url == [] || !isYoutubeLink {
        return None;
      }
      youtubeUrl := cleaned;
      nextEnabled := false;
      fetch := Some(cleaned);
    }

    /** The first lines of `on_formats_ready`: the formats, the title and its slug cut to 100 characters. */
    method StoreVideo(formats: seq<Descriptor>, title: string, slugified: string)
      modifies this`videoFormats, this`videoTitle, this`videoTitleSlug
      ensures videoFormats == formats && videoTitle == title
      ensures |videoTitleSlug| == if |slugified| <= SlugLimit then |slugified| else SlugLimit
      ensures videoTitleSlug == slugified[..|videoTitleSlug|]
    {
      videoFormats := formats;
      videoTitle := title;
      videoTitleSlug := Truncated(slugified, SlugLimit);
    }

    /**
     * `on_formats_ready`: store the formats and title, derive the slug from
     * `slugified` (what `slugify` returns for the title), refill page 2 and
     * show it.  An empty list of formats is accepted as well.
     */
    method OnFormatsReady(formats: seq<Descriptor>, title: string, slugified: string)
      requires Valid()
      modifies this`videoFormats, this`videoTitle, this`videoTitleSlug, this`listed, this`current,
               this`boxes, this`listEnabled, this`downloadEnabled, this`stage, this`nextEnabled
      ensures Valid()
      ensures stage == OptionsPage && nextEnabled
      ensures videoFormats == formats && videoTitle == title
      ensures |videoTitleSlug| == if |slugified| <= SlugLimit then |slugified| else SlugLimit
      ensures videoTitleSlug == slugified[..|videoTitleSlug|]
      ensures listed == ListedFormats(formats) && current == None
      ensures boxes == NoBoxes && !listEnabled && !downloadEnabled
    {
      StoreVideo(formats, title, slugified);
      UpdatePage2Formats();
      stage := OptionsPage;
      nextEnabled := true;
    }

    /** `on_error`: the fetch failed; the next button comes back. */
    method OnError(message: string)
      requires Valid()
      modifies this`nextEnabled
      ensures Valid() && nextEnabled
    {
      nextEnabled := true;
    }

    // -------------------------------------------------------------------
    // Page 2
    // -------------------------------------------------------------------

    /**
     * `update_page2_formats`: clear the list, list every format that is not
     * audio-only in order, uncheck the four boxes and disable the list and
     * the download button.  The handler runs that `clear` and `setChecked`
     * trigger are all overwritten by the closing assignments.
     */
    method UpdatePage2Formats()
      modifies this`listed, this`current, this`boxes, this`listEnabled, this`downloadEnabled
      ensures listed == ListedFormats(videoFormats) && current == None
      ensures boxes == NoBoxes && !listEnabled && !downloadEnabled
    {
      ClearList();
      var i := 0;
      while i < |videoFormats|
        invariant 0 <= i <= |videoFormats|
        invariant listed == ListedFormats(videoFormats[..i])
        invariant current.None?
      {
        var fmt := videoFormats[i];
        ListedFormatsSnoc(videoFormats[..i], fmt);
        assert videoFormats[..i + 1] == videoFormats[..i] + [fmt];
        if !Contains(fmt.resolution, AudioOnlyLabel) {
          listed := listed + [fmt];
        }
        i := i + 1;
      }
      assert videoFormats[..i] == videoFormats;
      UncheckAll();
      downloadEnabled := false;
      listEnabled := false;
    }

    /**
     * `_handle_download_option_change`, run for `sender`.  Unchecking the
     * other media box emits `stateChanged` and so runs this handler again
     * before the first run finishes; the outcome is still `OnOptionChange`.
     */
    method HandleOptionChange(sender: Sender)
      modifies this`boxes, this`listEnabled, this`downloadEnabled
      decreases CheckedCount(boxes), 1
      ensures OptionPanel() == OnOptionChange(old(OptionPanel()), sender)
    {
      var isVideoSelected := boxes.merged;
      var isAudioOnlySelected := boxes.audioOnly;
      if sender == MergedBox && isVideoSelected {
        ClearBox(AudioBox);
      }
      if sender == AudioBox && isAudioOnlySelected {
        ClearBox(MergedBox);
      }
      listEnabled := boxes.merged;
      downloadEnabled := CanDownload(boxes, current.Some?);
    }

    /** `setChecked(False)` on a box: if it was checked, its `stateChanged` runs the handler. */
    method ClearBox(box: Sender)
      requires box != FormatsList
      modifies this`boxes, this`listEnabled, this`downloadEnabled
      decreases CheckedCount(boxes), 0
      ensures !Checked(boxes, box)
      ensures Checked(old(boxes), box) ==>
        boxes == Flip(old(boxes), box) && listEnabled == boxes.merged && downloadEnabled == CanDownload(boxes, current.Some?)
      ensures !Checked(old(boxes), box) ==>
        boxes == old(boxes) && listEnabled == old(listEnabled) && downloadEnabled == old(downloadEnabled)
    {
      if Checked(boxes, box) {
        boxes := Flip(boxes, box);
        HandleOptionChange(box);
      }
    }

    /** `formats_list.clear()`: a current item disappears, and `currentItemChanged` runs the handler. */
    method ClearList()
      modifies this`listed, this`current, this`boxes, this`listEnabled, this`downloadEnabled
      ensures listed == [] && current == None && boxes == old(boxes)
      ensures old(current).Some? ==> listEnabled == boxes.merged && downloadEnabled == CanDownload(boxes, false)
      ensures old(current).None? ==> listEnabled == old(listEnabled) && downloadEnabled == old(downloadEnabled)
    {
      listed := [];
      if current.Some? {
        current := None;
        HandleOptionChange(FormatsList);
      }
    }

    /**
     * `setChecked(False)` on the four boxes in turn.  The last handler run
     * sees all four unchecked, so it disables the list and the button.
     */
    method UncheckAll()
      modifies this`boxes, this`listEnabled, this`downloadEnabled
      ensures boxes == NoBoxes
      ensures old(boxes) != NoBoxes ==> !listEnabled && !downloadEnabled
      ensures old(boxes) == NoBoxes ==> listEnabled == old(listEnabled) && downloadEnabled == old(downloadEnabled)
    {
      ClearBox(MergedBox);
      ClearBox(AudioBox);
      ClearBox(ThumbnailBox);
      ClearBox(DescriptionBox);
    }

    /** A click on one of the four boxes: it flips, and its `stateChanged` runs the handler. */
    method ToggleBox(box: Sender)
      requires box != FormatsList
      requires Valid()
      modifies this`boxes, this`listEnabled, this`downloadEnabled
      ensures Valid()
      ensures OptionPanel() == Toggle(old(OptionPanel()), box)
      ensures box == MergedBox && !old(boxes.merged) ==> boxes.merged && !boxes.audioOnly
      ensures box == AudioBox && !old(boxes.audioOnly) ==> boxes.audioOnly && !boxes.merged
      ensures downloadEnabled == CanDownload(boxes, current.Some?)
    {
      ToggleKeepsExclusive(OptionPanel(), box);
      OptionChangeEffect(OptionPanel().(boxes := Flip(boxes, box)), box);
      boxes := Flip(boxes, box);
      HandleOptionChange(box);
    }

    /** The user makes `item` the list's current item; `currentItemChanged` runs the handler. */
    method SelectFormat(item: Option<nat>)
      requires Valid()
      requires item.Some? ==> item.value < |listed|
      modifies this`current, this`boxes, this`listEnabled, this`downloadEnabled
      ensures Valid()
      ensures current == item
      ensures item == old(current) ==> OptionPanel() == old(OptionPanel())
      ensures item != old(current) ==> OptionPanel() == OnOptionChange(old(OptionPanel()).(hasCurrentItem := item.Some?), FormatsList)
      ensures boxes == old(boxes)
    {
      if item != current {
        OptionChangeEffect(OptionPanel().(hasCurrentItem := item.Some?), FormatsList);
        current := item;
        HandleOptionChange(FormatsList);
      }
    }

    /** The enabled states of the download, cancel and back buttons of page 2. */
    method SetDownloadButtons(download: bool, cancel: bool, back: bool)
      modifies this`downloadEnabled, this`cancelEnabled, this`backOptionsEnabled
      ensures downloadEnabled == download && cancelEnabled == cancel && backOptionsEnabled == back
    {
      downloadEnabled := download;
      cancelEnabled := cancel;
      backOptionsEnabled := back;
    }

    /**
     * The option building of `start_download`: the options are filled in
     * field by field as the checked boxes dictate, and the job is refused
     * when the merged box has no current quality or nothing is checked.
     */
    method DownloadRequest() returns (job: Option<DownloadOptions>, kind: DownloadType)
      ensures var plan := BuildDownload(boxes, CurrentFormat(), videoTitleSlug);
        if plan.Dispatch? then job == Some(plan.options) && kind == plan.kind
        else job.None? && kind == NoType
      ensures job.Some? ==> kind != NoType
    {
      var options := DownloadOptions(NoMedia, [], boxes.description, boxes.thumbnail, videoTitleSlug);
      kind := NoType;
      if boxes.merged {
        var selected := CurrentFormat();
        if selected.None? {
          return None, NoType;
        }
        var fmt := selected.value;
        var height := HeightBound(fmt.resolution);
        options := options.(format := MergedFormat(height, fmt.ext));
        options := options.(postprocessors := [VideoConvertor(fmt.ext)]);
        kind := MergedVideoAudio;
      } else if boxes.audioOnly {
        options := options.(format := BestAudio);
        options := options.(postprocessors := [ExtractAudio("mp3", "192")]);
        kind := AudioOnly;
      }
      if kind == NoType {
        if boxes.thumbnail || boxes.description {
          kind := Auxiliary;
          options := options.(format := NoMedia);
        } else {
          return None, NoType;
        }
      }
      job := Some(options);
    }

    /**
     * `start_download`: a dispatched job records its type and locks the
     * download, cancel and back buttons for the run; a refused one only
     * resets the type.
     */
    method StartDownload() returns (job: Option<DownloadOptions>)
      requires Valid()
      modifies this`downloadType, this`downloadEnabled, this`cancelEnabled, this`backOptionsEnabled
      ensures Valid()
      ensures var plan := BuildDownload(boxes, CurrentFormat(), videoTitleSlug);
        if plan.Dispatch? then
          job == Some(plan.options) && downloadType == plan.kind
          && !downloadEnabled && cancelEnabled && !backOptionsEnabled
        else
          job.None? && downloadType == NoType
          && downloadEnabled == old(downloadEnabled) && cancelEnabled == old(cancelEnabled)
          && backOptionsEnabled == old(backOptionsEnabled)
      ensures job.Some? ==> downloadType != NoType
    {
      var kind;
      job, kind := DownloadRequest();
      downloadType := kind;
      if job.Some? {
        SetDownloadButtons(false, true, false);
      }
    }

    /**
     * `on_download_finished`: record the file and go on to the conversion
     * page after a merged download or when a thumbnail was asked for, and to
     * the finish page otherwise.
     */
    method OnDownloadFinished(filename: string)
      requires Valid()
      modifies this`downloadedFile, this`isDownloadComplete, this`downloadEnabled, this`cancelEnabled,
               this`backOptionsEnabled, this`stage
      ensures Valid()
      ensures stage == if downloadType == MergedVideoAudio || boxes.thumbnail then ConvertPage else FinishPage
      ensures downloadedFile == Some(filename) && isDownloadComplete
      ensures downloadEnabled && !cancelEnabled && backOptionsEnabled
    {
      downloadedFile := Some(filename);
      isDownloadComplete := true;
      SetDownloadButtons(true, false, true);
      if downloadType == MergedVideoAudio || boxes.thumbnail {
        stage := ConvertPage;
      } else {
        stage := FinishPage;
      }
    }

    /**
     * `on_download_error`, also connected to the conversion worker's error
     * signal: it restores the download page's buttons only, whatever page
     * is showing, and leaves the stage alone.
     */
    method OnDownloadError(message: string)
      requires Valid()
      modifies this`downloadEnabled, this`cancelEnabled, this`backOptionsEnabled, this`isDownloadComplete
      ensures Valid()
      ensures downloadEnabled && !cancelEnabled && backOptionsEnabled && !isDownloadComplete
    {
      SetDownloadButtons(true, false, true);
      isDownloadComplete := false;
    }

    /** The back button of page 2. */
    method BackFromOptions()
      requires Valid()
      modifies this`stage
      ensures Valid() && stage == FetchPage
    {
      stage := FetchPage;
    }

    // -------------------------------------------------------------------
    // Page 3
    // -------------------------------------------------------------------

    /** `_check_conversion_ready`. */
    method CheckConversionReady()
      modifies this`convertEnabled
      ensures convertEnabled == ConversionReady(codecIndex, containerIndex, imageIndex, boxes.thumbnail)
    {
      var videoConversionSelected := codecIndex > 0 || containerIndex > 0;
      var imageConversionSelected := imageIndex > 0 && boxes.thumbnail;
      convertEnabled := videoConversionSelected || imageConversionSelected;
    }

    /** `setCurrentIndex` on a combo: a change emits `currentIndexChanged`, which runs the check. */
    method SetCombo(c: Combo, i: nat)
      modifies this`codecIndex, this`containerIndex, this`imageIndex, this`convertEnabled
      ensures codecIndex == if c == CodecCombo then i else old(codecIndex)
      ensures containerIndex == if c == ContainerCombo then i else old(containerIndex)
      ensures imageIndex == if c == ImageCombo then i else old(imageIndex)
      ensures convertEnabled == if i == old(ComboIndex(c)) then old(convertEnabled)
                                else ConversionReady(codecIndex, containerIndex, imageIndex, boxes.thumbnail)
    {
      match c {
        case CodecCombo =>
          if i == codecIndex { return; }
          codecIndex := i;
        case ContainerCombo =>
          if i == containerIndex { return; }
          containerIndex := i;
        case ImageCombo =>
          if i == imageIndex { return; }
          imageIndex := i;
      }
      CheckConversionReady();
    }

    /** `setCurrentIndex(0)` on the three combos in turn; the last check sees all three at 0. */
    method ResetCombos()
      modifies this`codecIndex, this`containerIndex, this`imageIndex, this`convertEnabled
      ensures codecIndex == 0 && containerIndex == 0 && imageIndex == 0
      ensures convertEnabled == if old(codecIndex) != 0 || old(containerIndex) != 0 || old(imageIndex) != 0
                                then false else old(convertEnabled)
    {
      SetCombo(CodecCombo, 0);
      SetCombo(ContainerCombo, 0);
      SetCombo(ImageCombo, 0);
    }

    /** The user picks entry `i` of a combo. */
    method SelectCombo(c: Combo, i: nat)
      requires Valid() && i < ComboSize(c)
      modifies this`codecIndex, this`containerIndex, this`imageIndex, this`convertEnabled
      ensures Valid()
      ensures codecIndex == if c == CodecCombo then i else old(codecIndex)
      ensures containerIndex == if c == ContainerCombo then i else old(containerIndex)
      ensures imageIndex == if c == ImageCombo then i else old(imageIndex)
      ensures convertEnabled == if i == old(ComboIndex(c)) then old(convertEnabled)
                                else ConversionReady(codecIndex, containerIndex, imageIndex, boxes.thumbnail)
    {
      SetCombo(c, i);
    }

    /**
     * `start_conversion_simulation`: with nothing chosen go to the finish
     * page, otherwise lock the page's buttons and return the options handed
     * to a new conversion worker.  With `ComboText` the image format passed
     * on is the combo's text, as the code does; with `RequestedOnly` it is the
     * text only when a thumbnail was asked for.
     */
    method StartConversion(gate: ImageGate) returns (job: Option<ConversionOptions>)
      requires Valid()
      modifies this`stage, this`convertEnabled, this`cancelConvertEnabled, this`backConvertEnabled
      ensures Valid()
      ensures gate == ComboText ==>
        job == PlanConversionAsWritten(codecIndex, containerIndex, imageIndex, boxes.thumbnail, videoTitleSlug)
      ensures gate == RequestedOnly ==>
        job == PlanConversion(codecIndex, containerIndex, imageIndex, boxes.thumbnail, videoTitleSlug)
      ensures job.None? ==>
        stage == FinishPage && convertEnabled == old(convertEnabled)
        && cancelConvertEnabled == old(cancelConvertEnabled) && backConvertEnabled == old(backConvertEnabled)
      ensures job.Some? ==> stage == old(stage) && !convertEnabled && cancelConvertEnabled && !backConvertEnabled
    {
      var isVideoConvert := codecIndex > 0 || containerIndex > 0;
      var isImageConvert := imageIndex > 0 && boxes.thumbnail;
      if !isVideoConvert && !isImageConvert {
        stage := FinishPage;
        return None;
      }
      convertEnabled := false;
      cancelConvertEnabled := true;
      backConvertEnabled := false;
      var imageFormat := ImageChoices[imageIndex];
      if gate == RequestedOnly && !isImageConvert {
        imageFormat := OriginalEntry;
      }
      job := Some(ConversionOptions(imageFormat, videoTitleSlug, isVideoConvert));
    }

    /** `cancel_conversion_simulation`; `workerRunning` says whether a conversion worker exists and runs. */
    method CancelConversion(workerRunning: bool)
      requires Valid()
      modifies this`stage, this`convertEnabled, this`cancelConvertEnabled, this`backConvertEnabled
      ensures Valid()
      ensures !workerRunning ==>
        stage == old(stage) && convertEnabled == old(convertEnabled)
        && cancelConvertEnabled == old(cancelConvertEnabled) && backConvertEnabled == old(backConvertEnabled)
      ensures workerRunning ==> stage == FinishPage && convertEnabled && !cancelConvertEnabled && backConvertEnabled
    {
      if workerRunning {
        convertEnabled := true;
        cancelConvertEnabled := false;
        backConvertEnabled := true;
        stage := FinishPage;
      }
    }

    /** `on_conversion_finished`. */
    method OnConversionFinished()
      requires Valid()
      modifies this`stage, this`convertEnabled, this`cancelConvertEnabled, this`backConvertEnabled
      ensures Valid()
      ensures stage == FinishPage && convertEnabled && !cancelConvertEnabled && backConvertEnabled
    {
      convertEnabled := true;
      cancelConvertEnabled := false;
      backConvertEnabled := true;
      stage := FinishPage;
    }

    /** The back button of page 3. */
    method BackFromConvert()
      requires Valid()
      modifies this`stage
      ensures Valid() && stage == OptionsPage
    {
      stage := OptionsPage;
    }

    // -------------------------------------------------------------------
    // Page 4
    // -------------------------------------------------------------------

    /** The back button of page 4 goes one page down from the page it sits on. */
    method BackFromFinish()
      requires Valid() && stage == FinishPage
      modifies this`stage
      ensures Valid() && stage == ConvertPage
    {
      stage := stage - 1;
    }

    /** The first lines of `reset_application`: the video and the download are forgotten. */
    method ForgetVideo()
      modifies this`youtubeUrl, this`videoFormats, this`videoTitle, this`videoTitleSlug, this`downloadType,
               this`downloadedFile, this`isDownloadComplete
      ensures youtubeUrl == "" && videoFormats == [] && videoTitle == "" && videoTitleSlug == ""
      ensures downloadType == NoType && downloadedFile == None && !isDownloadComplete
    {
      youtubeUrl := "";
      videoFormats := [];
      videoTitle := "";
      downloadType := NoType;
      downloadedFile := None;
      isDownloadComplete := false;
      videoTitleSlug := "";
    }

    /** The option-page lines of `reset_application`: the boxes are unchecked, the list is emptied and disabled. */
    method ClearOptions()
      modifies this`boxes, this`listed, this`current, this`listEnabled, this`downloadEnabled
      ensures boxes == NoBoxes && listed == [] && current == None && !listEnabled
      ensures downloadEnabled == if old(boxes) != NoBoxes || old(current).Some? then false else old(downloadEnabled)
    {
      UncheckAll();
      ClearList();
      listEnabled := false;
    }

    /**
     * `reset_application`: back to page 1 with everything emptied.  The
     * boxes, the list and the combos are reset through their widgets, so the
     * download button is disabled only if some box or list item changed,
     * and the convert button only if some combo changed.  Running workers
     * are not stopped and the next button is left as it is.
     */
    method ResetApplication()
      requires Valid()
      modifies this`youtubeUrl, this`videoFormats, this`videoTitle, this`videoTitleSlug, this`downloadType,
               this`downloadedFile, this`isDownloadComplete, this`boxes, this`listed, this`current,
               this`listEnabled, this`downloadEnabled, this`codecIndex, this`containerIndex, this`imageIndex,
               this`convertEnabled, this`stage
      ensures Valid()
      ensures stage == FetchPage
      ensures youtubeUrl == "" && videoFormats == [] && videoTitle == "" && videoTitleSlug == ""
      ensures downloadType == NoType && downloadedFile == None && !isDownloadComplete
      ensures boxes == NoBoxes && listed == [] && current == None && !listEnabled
      ensures downloadEnabled == if old(boxes) != NoBoxes || old(current).Some? then false else old(downloadEnabled)
      ensures codecIndex == 0 && containerIndex == 0 && imageIndex == 0
      ensures convertEnabled == if old(codecIndex) != 0 || old(containerIndex) != 0 || old(imageIndex) != 0
                                then false else old(convertEnabled)
    {
      ForgetVideo();
      ClearOptions();
      ResetCombos();
      stage := FetchPage;
      assert ListedFormats(videoFormats) == [];
      assert PanelInvariant(boxes, listEnabled) && ListInvariant(listed, videoFormats, current);
    }
  }
}
